=== FILE: README.md ===
# Cheese chat core: message-to-prompt builder and history reconstructor

This Dafny project models the chat core of the cheese assistant's API service.
The core is three near-duplicate utilities:

- the plain chat utility, `llm_utils.py`;
- the retrieval-augmented utility, `llm_rag_utils.py`;
- the classification-seeded utility, `llm_cnn_utils.py`.

Each utility turns an inbound message into the parts sent to the generative
model, and rebuilds a model-context history from persisted turns.

Once the network is taken away, what is left is deterministic list and string
work. The model covers:

- **Classification.** A message dict has optional `image`, `image_path` and
  `content` entries. A value counts only when it is a non-empty string. A
  given `image` wins over `image_path`, which wins over `content`.
- **Image parts.** A data-URI `image` is split at its first comma. The MIME
  type is the header's second `:`-field, cut at the first `;`. A bare base64
  string is taken as JPEG. A stored image is read from the feature's
  directory and typed by its extension. Both image branches give two parts:
  the image, then the text or the fixed default instruction.
- **Text parts.** The plain utility sends the text verbatim. The retrieval
  utility embeds the text once and asks the collection for five results. It
  sends one prompt: the question followed by the first fragment list, joined
  by newlines.
- **Error wrapping.** Everything raised inside `generate_chat_response`
  (plain and retrieval) becomes an HTTP 500 whose detail starts with
  `Failed to generate response: `. That includes the inner 400 raised for an
  undecodable payload.
- **History reconstruction.** `user` turns become user contents and
  `assistant` turns model contents. In the classification utility, `cnn`
  turns become a user content naming the predicted label. Every other role
  is skipped. The first turn missing a key aborts the rebuild.

## Structure

- `wrappers.dfy` (`Wrappers`): `Option` and `Result`.
- `pytext.dfy` (`PyText`): Python's `find`, `rfind`, `split`, `split(c, 1)`,
  `join` and ASCII `lower`, with split/join round trips.
- `pypath.dfy` (`PyPath`): `os.path.join`, and `pathlib`'s `name` and `suffix`.
- `chat_types.dfy` (`ChatTypes`): the message, turn, part, content and
  exception datatypes. It also holds the `Services` record of external
  collaborators and the `Call` trace of what was asked of them.
- `image_input.dfy` (`ImageInput`): data-URI parsing and the extension→MIME
  table.
- `chat_engine.dfy` (`ChatEngine`): classification, part assembly for each
  branch, the retrieval prompt, sending, and the outer error handler.
- `history.dfy` (`History`): the history reconstructor, shared by all three
  utilities and parameterised by whether `cnn` turns are recognised.
- `llm_utils.dfy`, `llm_rag_utils.dfy`, `llm_cnn_utils.dfy`: one module per
  source file. Each defines that file's `generate_chat_response` and
  `rebuild_chat_session` and states its file-specific contracts.

### External collaborators

These are the fields of `ChatTypes.Services`. Each is a total function that
answers with a value or an error message:

- base64 decoding;
- file reading;
- the vector-store collection lookup and query;
- the embedding model;
- the chat session's `send_message`.

Every run returns its outcome together with the ordered list of calls it
made. That list lets contracts say:

- which collaborators a branch touches;
- that the empty-message error is raised before any call to the model;
- that the lookup comes first in the retrieval utility.

### Behaviour worth noting

- The default instruction is "Name the cheese in the image, no descriptions
  needed".
- The classification turn reads "We have already identified the image of a
  cheese as <label>".
- An undecodable image and an unreadable file are not client errors as seen
  by the caller. The 400 raised for a bad payload is caught by the outer
  handler and re-raised as a 500. A failed file read is a 500 directly.
- In the retrieval utility an empty message is not rejected before every
  external call: the collection lookup happens first.
- A header without `:` (for example `abc,xyz`) raises `IndexError`. That is
  not a `ValueError`, so it skips the inner 400 and is reported as a 500.
- The data-URI branch accepts any MIME type, including an empty one. Only
  the stored-image branch is limited to JPEG, PNG and GIF.

## Model

| member | source | states |
|---|---|---|
| PyText.Split | src/api-service/api/utils/llm_utils.py:80 | `split` yields separator-free fields, a single field exactly when the separator does not occur, and the first field is the text before the first separator |
| PyText.JoinSplit | src/api-service/api/utils/llm_utils.py:80 | the fields `split` yields lose nothing: joined with the separator they rebuild the text |
| PyText.SplitJoin | src/api-service/api/utils/llm_rag_utils.py:163 | splitting a newline join of newline-free fragments gives back the fragments, in order |
| PyText.Lower | src/api-service/api/utils/llm_utils.py:117 | lower-casing keeps the length and changes exactly the ASCII capitals, each to its small letter |
| ImageInput.MimeOfHeader | src/api-service/api/utils/llm_utils.py:80 | the header's MIME lookup fails with IndexError exactly when the header has no `:`; otherwise the result holds no `:` or `;` |
| ImageInput.MimeOfHeaderCut | src/api-service/api/utils/llm_utils.py:80 | the MIME type is the text after the header's first `:` up to the next `:` or `;` |
| ImageInput.ParseImage | src/api-service/api/utils/llm_utils.py:77-83 | without a comma the whole field is the payload and the type is image/jpeg; with one, the payload is everything after the first comma and the type comes from the header before it; the only failure is IndexError |
| ImageInput.ParseAtComma | src/api-service/api/utils/llm_utils.py:78-80 | the header ends at the first comma and everything after it, further commas included, is the payload; the header alone decides the MIME type or the failure |
| ImageInput.ParseDataUri | src/api-service/api/utils/llm_utils.py:77-83 | `data:<mime>;base64,<payload>` yields exactly `<mime>`, whatever it is, and the whole payload, commas included |
| ImageInput.MimeOfSuffix | src/api-service/api/utils/llm_utils.py:112-117 | the suffix table is case-insensitive, gives image/png only for `.png`, image/gif only for `.gif`, and image/jpeg for everything else |
| ImageInput.MimeOfPath | src/api-service/api/utils/llm_rag_utils.py:135-140 | a stored image's MIME type is always image/jpeg, image/png or image/gif |
| ImageInput.MimeOfChild | src/api-service/api/utils/llm_utils.py:117 | a stored image is typed by its own extension, whatever directory holds it |
| ImageInput.MimeWithoutExtension | src/api-service/api/utils/llm_utils.py:112-117 | a file name with no dot after its first character, or with a trailing dot, is typed image/jpeg |
| PyPath.JoinPath | src/api-service/api/utils/llm_utils.py:107 | an absolute image path replaces the storage directory; the joined path always ends with the image path |
| PyPath.JoinRelative | src/api-service/api/utils/llm_rag_utils.py:130 | a relative image path lands under the storage directory, after one `/` |
| PyPath.SuffixOfChild | src/api-service/api/utils/llm_utils.py:117 | the suffix of `dir/stem.ext` is `.ext` when the extension holds no further dot |
| PyPath.Suffix | src/api-service/api/utils/llm_utils.py:117 | a suffix is empty or a dot followed by dot-free text, a proper tail of the file name; it is empty exactly when no dot follows the name's first character or the name ends with a dot |
| PyPath.NameOfChild | src/api-service/api/utils/llm_rag_utils.py:140 | the file name of `dir/name` is `name`, whatever the directory part |
| ChatEngine.Classify | src/api-service/api/utils/llm_utils.py:74-133 | the inline-image branch is taken exactly when `image` is given, the stored-image branch exactly when only `image_path` of the two is, the text branch exactly when only `content` is |
| ChatEngine.EmptyCountsAsAbsent | src/api-service/api/utils/llm_utils.py:74-132 | an empty string, a null and a missing key classify a message identically |
| ChatEngine.LowerFieldsIgnored | src/api-service/api/utils/llm_utils.py:74-129 | a given image makes the image path irrelevant; in both image branches the text changes no call |
| ChatEngine.StorageRoot | src/api-service/api/utils/llm_rag_utils.py:130 | stored images are read from chat-history/llm in the plain utility and chat-history/llm-rag in the retrieval one |
| ChatEngine.Caption | src/api-service/api/utils/llm_utils.py:92-98 | the part after an image is a non-empty text: exactly the message's text when given, otherwise exactly the default instruction |
| ChatEngine.InlineImageParts | src/api-service/api/utils/llm_utils.py:74-104 | only base64 decoding is called; a header failure is the parser's IndexError with no call; otherwise one decode of the parsed payload, whose failure becomes a 400 naming the decoder's message and whose success gives the decoded bytes under the parsed MIME type, then the caption |
| ChatEngine.StoredImageParts | src/api-service/api/utils/llm_utils.py:105-129 | exactly one read of the joined path; it succeeds exactly when the read does, giving the file's bytes typed by that path's extension (JPEG, PNG or GIF), then the caption; a failed read is an OSError |
| ChatEngine.RetrievalPrompt | src/api-service/api/utils/llm_rag_utils.py:161-164 | the prompt opens with a newline and the template's indentation, and the question follows immediately |
| ChatEngine.RetrievalPromptLines | src/api-service/api/utils/llm_rag_utils.py:161-165 | line by line, the prompt is an empty line, the indented question, the indented first fragment, the remaining fragments in retrieval order, and the closing indentation |
| ChatEngine.RetrievalPromptNoFragments | src/api-service/api/utils/llm_rag_utils.py:161-165 | for a single-line question and an empty fragment list, the prompt reads as an empty line, the indented question, a bare indented line and the closing indentation |
| ChatEngine.RetrievalParts | src/api-service/api/utils/llm_rag_utils.py:151-165 | the question is embedded once with the fixed model and dimension; only a successful embedding is queried, for five results of that one embedding, in the given collection; a failed embedding or query is a service error naming its message, an answer with no fragment lists an IndexError, and any other answer gives one part, the prompt built from its first fragment list |
| ChatEngine.BuildParts | src/api-service/api/utils/llm_rag_utils.py:93-169 | branch precedence and part shapes; each image branch is exactly its inline or stored step, so its failures are theirs (IndexError for a bad header, the inner 400, OSError); two parts led by the image in the image branches; one part in the text branch; verbatim text in the plain utility and the retrieval branch's outcome in the retrieval one; an inline image succeeds exactly when it parses and decodes, and leads with the decoded bytes under the parsed MIME type; a stored image succeeds exactly when the file under the utility's directory is read, and leads with its bytes typed by that path; building never looks up the collection or calls the model; only the retrieval text branch embeds (its own text) and queries (five results, one embedding, its collection); ValueError with no call for an empty message |
| ChatEngine.SendParts | src/api-service/api/utils/llm_utils.py:135-141 | the model is called once, after every other call, only when parts were built; sending adds that call and nothing else; the model's answer is the reply, and its failure is a service error carrying the model's message |
| ChatEngine.Respond | src/api-service/api/utils/llm_utils.py:74-141 | everything inside the outer handler: a failed build is returned with its calls and nothing is sent; a built payload is sent once as the last call, and the reply exists exactly when the model answers, a model failure being a service error with its message; no collection lookup; embedding and querying only in the retrieval text branch, with the message's own text, five results and one embedding |
| ChatEngine.Guard | src/api-service/api/utils/llm_utils.py:143-148 | every exception becomes an HTTP 500 whose detail is the fixed prefix followed by the exception's text, so every failure the caller sees is a 500 starting with that prefix; a reply passes through; the calls made are kept |
| ChatTypes.Describe | src/api-service/api/utils/llm_utils.py:143-148 | `str(e)` is an exception's message, a KeyError's key between single quotes, or for an HTTPException its status in decimal, ": " and its detail |
| LlmUtils.GenerateChatResponse | src/api-service/api/utils/llm_utils.py:56-148 | failures reach the caller only as 500 with the prefix; no embedding or vector store is used; a failure to build the parts is that 500 naming the failure, with nothing sent; otherwise the parts are sent once as the last call and a reply comes back exactly when the model answers, the answer being the reply and a model failure the 500 whose detail is the prefix followed by the model's message |
| LlmUtils.EmptyMessageFails | src/api-service/api/utils/llm_utils.py:130-148 | a message with no usable field fails with 500 "Failed to generate response: Message must contain either text content or image" and makes no call |
| LlmUtils.TextSentVerbatim | src/api-service/api/utils/llm_utils.py:130-139 | a text-only message is sent as exactly one part equal to its text, and nothing else is called |
| LlmUtils.InlineImageAnswered | src/api-service/api/utils/llm_utils.py:76-141 | a decodable inline image that the model answers costs one decode and one send of two parts, the decoded bytes under the header's MIME type and then the text or the default instruction, and the answer is the reply |
| LlmUtils.StoredImageAnswered | src/api-service/api/utils/llm_utils.py:105-141 | a readable stored image that the model answers costs one read under chat-history/llm and one send of two parts, the file's bytes typed by that path and then the text or the default instruction, and the answer is the reply |
| LlmUtils.StoredImageRoot | src/api-service/api/utils/llm_utils.py:105-109 | the first call for a stored image reads `image_path` joined under chat-history/llm |
| LlmUtils.BadHeaderIs500 | src/api-service/api/utils/llm_utils.py:77-148 | an image header without `:` reaches the caller as 500 "Failed to generate response: list index out of range" with no call made |
| LlmUtils.UnreadableFileIs500 | src/api-service/api/utils/llm_utils.py:105-148 | an unreadable stored image is one read under chat-history/llm, then a 500 whose detail is the prefix followed by the reader's message |
| LlmUtils.OuterDetailOfBadImage | src/api-service/api/utils/llm_utils.py:100-148 | the outer handler renders the inner 400 as "400: Image processing failed: <message>" after its own prefix |
| LlmUtils.BadImageIs500 | src/api-service/api/utils/llm_utils.py:85-148 | an undecodable payload reaches the caller as 500 "Failed to generate response: 400: Image processing failed: <decoder message>" |
| LlmUtils.RebuildChatSession | src/api-service/api/utils/llm_utils.py:151-168 | fails exactly when a turn lacks its role, or a user or assistant turn its content; the exception is that of the earliest such turn, KeyError('role') when the role is missing and KeyError('content') otherwise; on success, one single-part text content per user or assistant turn |
| LlmRagUtils.GenerateChatResponse | src/api-service/api/utils/llm_rag_utils.py:79-182 | the collection lookup is the first call whatever the message; a failed lookup is a 500 naming its message with no further call; after a lookup, a failure to build the parts is a 500 naming it with nothing sent, otherwise the parts are sent once as the last call and a reply comes back exactly when the model answers, a model failure being the 500 with the prefix followed by the model's message; only text-only messages are embedded and queried, with their own text, five results and one embedding |
| LlmRagUtils.Attempt | src/api-service/api/utils/llm_rag_utils.py:91-174 | inside the handler: the lookup is the first call; a failed lookup is a service error with no other call; after it, a failed build is passed on unsent, a built payload is sent once as the last call, and the outcome is the model's answer or its error as a service error |
| LlmRagUtils.EmptyMessageAfterLookup | src/api-service/api/utils/llm_rag_utils.py:91-182 | an empty message makes the lookup and no other call, and with the collection found fails with the empty-message 500 |
| LlmRagUtils.StoredImageRoot | src/api-service/api/utils/llm_rag_utils.py:128-133 | right after the lookup, a stored image is read from `image_path` joined under chat-history/llm-rag |
| LlmRagUtils.TextSentAsPrompt | src/api-service/api/utils/llm_rag_utils.py:151-174 | an answered text-only message made four calls and sent one part: the retrieval prompt of its text and the first fragment list the query returned |
| LlmRagUtils.InlineImageAsPlain | src/api-service/api/utils/llm_rag_utils.py:98-127 | after a successful lookup, inline images give the plain utility's outcome and calls |
| LlmRagUtils.RebuildChatSession | src/api-service/api/utils/llm_rag_utils.py:184-201 | the retrieval utility rebuilds exactly the plain utility's history, one content per user or assistant turn |
| LlmCnnUtils.GenerateChatResponse | src/api-service/api/utils/llm_cnn_utils.py:77-79 | a missing `content` raises KeyError with no call; otherwise the raw `content` value is the whole payload of the only call, and the reply is the model's answer; a failing model call raises its own error, unwrapped |
| LlmCnnUtils.ImagesIgnored | src/api-service/api/utils/llm_cnn_utils.py:77-79 | the image fields play no part in what is sent or returned |
| LlmCnnUtils.RebuildChatSession | src/api-service/api/utils/llm_cnn_utils.py:82-107 | fails exactly when a turn lacks a key its role reads, or a cnn turn's results are null; the exception is that of the earliest such turn: KeyError('role'), KeyError('content'), KeyError('results'), TypeError "'NoneType' object is not subscriptable" or KeyError('prediction_label'); on success, one single-part text content per user, assistant or cnn turn |
| History.ConvertTurn | src/api-service/api/utils/llm_cnn_utils.py:86-105 | a turn converts exactly when the keys its role reads are present; a missing role raises KeyError('role'), a user or assistant turn without content KeyError('content'), and a cnn turn KeyError('results'), the NoneType TypeError for null results or KeyError('prediction_label'); a content is produced exactly for recognised roles, with one non-image part, a model content exactly for `assistant`; a user or assistant turn's text is that part verbatim, a cnn turn's part the preamble followed by the predicted label; other present roles are skipped |
| History.TextPart | src/api-service/api/utils/llm_utils.py:158 | `message["content"]` fails exactly when the key is missing, with KeyError('content'); a string becomes a text part verbatim and a null a part without text |
| History.LabelText | src/api-service/api/utils/llm_cnn_utils.py:101 | the label fails exactly when `prediction_label` is missing, with KeyError('prediction_label'); a string label is used verbatim and a null prints as `None` |
| History.Rebuild | src/api-service/api/utils/llm_cnn_utils.py:84-105 | succeeds exactly when every turn converts; then holds one single-part content per recognised turn; a failure is the exception of the earliest turn that fails to convert, every turn before it converting |
| History.RebuildAppend | src/api-service/api/utils/llm_cnn_utils.py:84-106 | rebuilding `xs + ys` rebuilds `xs` and `ys` and concatenates them, first failure winning: order kept, nothing merged |
| History.RebuildSnoc | src/api-service/api/utils/llm_utils.py:155-165 | rebuilding `xs + [t]` equals rebuilding `xs` followed by rebuilding `[t]` |
| History.FirstFailureWins | src/api-service/api/utils/llm_utils.py:155-165 | the exception raised is that of the earliest failing turn |
| History.SkippedTurn | src/api-service/api/utils/llm_rag_utils.py:188-198 | a turn with an unrecognised present role leaves the rebuilt history unchanged |
| History.ClassificationTurn | src/api-service/api/utils/llm_cnn_utils.py:96-104 | a `cnn` turn becomes a user content "We have already identified the image of a cheese as <label>"; the plain and retrieval rebuilds skip it |
| History.RebuildSerialize | src/api-service/api/utils/llm_utils.py:154-165 | a text-only history written out as user and assistant turns rebuilds to itself exactly |
| History.SerializeRebuild | src/api-service/api/utils/llm_rag_utils.py:187-198 | user and assistant turns with text rebuild successfully and write back out to the same turns |
| History.RebuildHistory | src/api-service/api/utils/llm_cnn_utils.py:84-106 | the turn-by-turn loop that appends each recognised turn and stops at the first exception computes the rebuilt history |

## Left out

- The generative model, the embedding model and the vector store are
  external services. `send_message`, `embed_content`, `get_collection` and
  `query` are fields of `Services` that answer with a value or an error
  message. How a chat session's history grows as a side effect of
  `send_message` is not modelled.
- `create_chat_session` and `chats.create` are not modelled. A rebuild
  returns the history that would be handed to `create_chat_session`.
- `base64.b64decode` and file reading are collaborators. The model does not
  re-implement Python's lenient decoder. A decoder failure is a `ValueError`,
  as `binascii.Error` is; a read failure is an `OSError`. `Part.from_bytes`
  is taken not to fail.
- `generate_query_embedding` is one `embed` call given the model name and
  dimensionality. Its `embeddings[0].values` step is folded into that call.
- The collection's `documents` entry is a list of fragment lists. A `None`
  entry is not modelled.
- Dict values are modelled only as missing, null or a string. Numbers, lists
  or nested dicts in the message or turn fields are not modelled, and neither
  is a `results` entry that is a string.
- The text of an exception is the collaborator's message. An HTTPException
  prints as "<status>: <detail>", which is how Starlette renders it. The
  collaborators' own messages are not modelled.
- `lower()` is modelled on ASCII letters only. No other character lowercases
  to a letter of `.jpg`, `.jpeg`, `.png` or `.gif`, so the MIME decision is
  unaffected.
- `pathlib`'s suffix follows the rule where a trailing dot is no suffix.
  Versions that treat a trailing dot as a suffix give `.` here, which the
  table also maps to JPEG.
- Logging (`print`, `traceback.print_exc`) is not modelled.
- The process-wide `chat_sessions` maps and the `SYSTEM_INSTRUCTION` strings
  are not modelled. The maps are only declared in these files, and the
  instruction strings are never passed to the model.
- CNN model loading and prediction are not modelled: `load_cnn_model`,
  `load_preprocess_image_from_path` and `make_prediction` in
  `llm_cnn_utils.py` (TensorFlow, HTTP download, zip extraction,
  floating-point softmax).
- The FastAPI application and routers (`service.py`,
  `routers/test_router.py`), client set-up in `llm_agent_utils.py`,
  deployment scripts and the React front end are outside the chat core.
- ChatEngine.RetrievalPromptLines: holds only for a question and fragments
  without newlines, and for at least one fragment; the empty list is
  RetrievalPromptNoFragments. A newline inside a fragment makes the line view ambiguous,
  although the prompt itself is still the question followed by the newline
  join of the fragments.
- ChatEngine.RetrievalPromptNoFragments: holds only for a question without
  newlines, for the same reason as RetrievalPromptLines.

=== FILE: chat_engine.dfy ===
/** The message-to-prompt builder shared by the plain and the retrieval chat
    utilities: it classifies a message, assembles the parts handed to the
    model, sends them, and turns every failure into one HTTP 500 error. */
module ChatEngine {
  import opened Wrappers
  import opened PyText
  import opened PyPath
  import opened ChatTypes
  import opened ImageInput

  /** The utility building the parts: the plain one, or the retrieval one
      holding the collection it looked up. */
  datatype Grounding = Plain | Retrieval(collection: Collection)

  /** The branch a message takes. */
  datatype Kind = InlineImage | StoredImage | TextOnly | NoContent

  const DefaultInstruction := "Name the cheese in the image, no descriptions needed"
  const EmptyMessage := "Message must contain either text content or image"
  const FailurePrefix := "Failed to generate response: "
  const ImageFailurePrefix := "Image processing failed: "
  const EmbeddingModel := "text-embedding-004"
  const EmbeddingDimension: nat := 256
  const ResultCount: nat := 5
  const CollectionName := "recursive-split-collection"
  const HistoryDir := "chat-history"
  /** The indentation the retrieval prompt's triple-quoted template carries on each line. */
  const Indent := "                "

  /** `image` wins over `image_path`, which wins over `content`; empty strings count as absent. */
  function Classify(m: Message): (k: Kind)
    ensures k == InlineImage <==> m.image.Given()
    ensures k == StoredImage <==> !m.image.Given() && m.imagePath.Given()
    ensures k == TextOnly <==> !m.image.Given() && !m.imagePath.Given() && m.content.Given()
  {
    if m.image.Given() then InlineImage
    else if m.imagePath.Given() then StoredImage
    else if m.content.Given() then TextOnly
    else NoContent
  }

  /** The directory stored images are read from. */
  function StorageRoot(g: Grounding): (r: string)
    ensures g.Plain? ==> r == "chat-history/llm"
    ensures g.Retrieval? ==> r == "chat-history/llm-rag"
  {
    var feature := if g.Plain? then "llm" else "llm-rag";
    JoinRelative(HistoryDir, feature);
    JoinPath(HistoryDir, feature)
  }

  /** The text part following an image: the message's text, or the default instruction. */
  function Caption(content: Value): (p: Part)
    ensures p.Text? && |p.text| > 0
    ensures content.Given() ==> p.text == content.s
    ensures !content.Given() ==> p == Text(DefaultInstruction)
  {
    if content.Given() then Text(content.s) else Text(DefaultInstruction)
  }

  /** The inline-image branch: parse the field, decode its base64 text, then the caption. */
  function InlineImageParts(sv: Services, image: string, caption: Part): (r: Run<seq<Part>>)
    ensures forall c :: c in r.calls ==> c.Decode?
    ensures r.outcome.Success? ==>
      && ParseImage(image).Success?
      && var d := ParseImage(image).value;
      && r.calls == [Decode(d.encoded)]
      && sv.decode(d.encoded).Success?
      && r.outcome.value == [Blob(sv.decode(d.encoded).value, d.mimeType), caption]
    ensures r.outcome.Failure? ==>
      || r == Run(Failure(IndexError(IndexOutOfRange)), [])
      || (r.outcome.error.HttpException? && r.outcome.error.status == 400)
    // a header without `:` fails before decoding is attempted
    ensures ParseImage(image).Failure? ==> r == Run(Failure(ParseImage(image).error), [])
    ensures ParseImage(image).Success? && sv.decode(ParseImage(image).value.encoded).Failure? ==>
      r == Run(Failure(HttpException(400, ImageFailurePrefix + sv.decode(ParseImage(image).value.encoded).error)),
               [Decode(ParseImage(image).value.encoded)])
    // a parsed, decodable image gives its bytes with the parsed MIME type, then the caption
    ensures ParseImage(image).Success? && sv.decode(ParseImage(image).value.encoded).Success? ==>
      r == Run(Success([Blob(sv.decode(ParseImage(image).value.encoded).value, ParseImage(image).value.mimeType), caption]),
               [Decode(ParseImage(image).value.encoded)])
  {
    match ParseImage(image)
    case Failure(e) => Run(Failure(e), [])
    case Success(d) =>
      var call := [Decode(d.encoded)];
      match sv.decode(d.encoded)
      case Failure(msg) => Run(Failure(HttpException(400, ImageFailurePrefix + msg)), call)
      case Success(bytes) => Run(Success([Blob(bytes, d.mimeType), caption]), call)
  }

  /** The stored-image branch: read the file under the storage root, type it by extension. */
  function StoredImageParts(sv: Services, root: string, imagePath: string, caption: Part): (r: Run<seq<Part>>)
    ensures r.calls == [ReadFile(JoinPath(root, imagePath))]
    ensures r.outcome.Success? <==> sv.readFile(JoinPath(root, imagePath)).Success?
    ensures r.outcome.Success? ==>
      && |r.outcome.value| == 2
      && r.outcome.value[0].Blob?
      && r.outcome.value[0].data == sv.readFile(JoinPath(root, imagePath)).value
      && r.outcome.value[0].mimeType == MimeOfPath(JoinPath(root, imagePath))
      && r.outcome.value[0].mimeType in {Jpeg, Png, Gif}
      && r.outcome.value[1] == caption
    ensures r.outcome.Failure? ==> r.outcome.error == OSError(sv.readFile(JoinPath(root, imagePath)).error)
  {
    var path := JoinPath(root, imagePath);
    match sv.readFile(path)
    case Failure(msg) => Run(Failure(OSError(msg)), [ReadFile(path)])
    case Success(bytes) => Run(Success([Blob(bytes, MimeOfPath(path)), caption]), [ReadFile(path)])
  }

  /** The retrieval prompt: the question, then the fragments joined by newlines. */
  function RetrievalPrompt(question: string, fragments: seq<string>): (p: string)
    ensures |p| > 1 + |Indent| + |question|
    ensures p[..1 + |Indent|] == "\n" + Indent
    ensures p[1 + |Indent|..1 + |Indent| + |question|] == question
  {
    "\n" + Indent + question + "\n" + Indent + Join("\n", fragments) + "\n" + Indent
  }

  /** The prompt is a newline, the indented question, a newline, the indented
      fragment block, a newline and the closing indentation. */
  lemma RetrievalPromptShape(question: string, fragments: seq<string>)
    ensures RetrievalPrompt(question, fragments)
         == ['\n'] + ((Indent + question) + ['\n'] + ((Indent + Join("\n", fragments)) + ['\n'] + Indent))
  {
  }

  /** Prefixing a join extends its first field. */
  lemma JoinFront(prefix: string, parts: seq<string>)
    requires |parts| >= 1
    ensures prefix + Join("\n", parts) == Join("\n", [prefix + parts[0]] + parts[1..])
  {
    var q := [prefix + parts[0]] + parts[1..];
    if |parts| == 1 {
      assert q == [prefix + parts[0]];
    } else {
      JoinCons("\n", parts);
      JoinCons("\n", q);
      assert q[1..] == parts[1..];
      Assoc(prefix, parts[0] + "\n", Join("\n", parts[1..]));
      Assoc(prefix, parts[0], "\n");
    }
  }

  /** The indented fragment block splits back into the fragments, the first one indented. */
  lemma FragmentBlockLines(fragments: seq<string>)
    requires |fragments| >= 1
    requires forall i :: 0 <= i < |fragments| ==> '\n' !in fragments[i]
    ensures Split(Indent + Join("\n", fragments), '\n') == [Indent + fragments[0]] + fragments[1..]
  {
    var lines := [Indent + fragments[0]] + fragments[1..];
    assert '\n' !in Indent;
    forall i | 0 <= i < |lines|
      ensures '\n' !in lines[i]
    {
      if i > 0 {
        assert lines[i] == fragments[i];
      }
    }
    JoinFront(Indent, fragments);
    SplitJoin(lines, '\n');
  }

  /** Read line by line, the prompt holds an empty line, the question on the
      first indented line, every fragment after it in retrieval order, and a
      closing indented line; nothing is lost or reordered. */
  lemma RetrievalPromptLines(question: string, fragments: seq<string>)
    requires |fragments| >= 1
    requires '\n' !in question
    requires forall i :: 0 <= i < |fragments| ==> '\n' !in fragments[i]
    ensures Split(RetrievalPrompt(question, fragments), '\n')
         == [""] + ([Indent + question] + ([Indent + fragments[0]] + fragments[1..]) + [Indent])
  {
    var q := Indent + question;
    var body := Indent + Join("\n", fragments);
    RetrievalPromptShape(question, fragments);
    assert '\n' !in Indent;
    SplitLeading(q + ['\n'] + (body + ['\n'] + Indent), '\n');
    SplitFramed(q, body, Indent, '\n');
    FragmentBlockLines(fragments);
  }

  /** With no fragments, the fragment block is a bare indented line between the
      question and the closing indentation. */
  lemma RetrievalPromptNoFragments(question: string)
    requires '\n' !in question
    ensures Split(RetrievalPrompt(question, []), '\n') == ["", Indent + question, Indent, Indent]
  {
    RetrievalPromptShape(question, []);
    assert Indent + Join("\n", []) == Indent;
    assert '\n' !in Indent;
    ThreeLines(Indent + question, Indent);
  }

  /** A leading newline, then three newline-free lines, the last two equal. */
  lemma ThreeLines(q: string, ind: string)
    requires '\n' !in q && '\n' !in ind
    ensures Split(['\n'] + (q + ['\n'] + (ind + ['\n'] + ind)), '\n') == ["", q, ind, ind]
  {
    var w := q + ['\n'] + (ind + ['\n'] + ind);
    SplitLeading(w, '\n');
    SplitFramed(q, ind, ind, '\n');
    SplitWhole(ind, '\n');
    FourItems("", q, ind, ind);
  }

  /** Four singletons concatenated are the four-element list. */
  lemma FourItems<T>(a: T, b: T, c: T, d: T)
    ensures [a] + ([b] + [c] + [d]) == [a, b, c, d]
  {
  }

  /** The retrieval text branch: embed the question once, ask the collection
      for five fragments, and build a single prompt part. */
  function RetrievalParts(sv: Services, collection: Collection, question: string): (r: Run<seq<Part>>)
    ensures 1 <= |r.calls| <= 2
    ensures r.calls[0] == Embed(EmbeddingModel, question, EmbeddingDimension)
    ensures |r.calls| == 2 <==> sv.embed(EmbeddingModel, question, EmbeddingDimension).Success?
    ensures |r.calls| == 2 ==>
      r.calls[1] == Query(collection, [sv.embed(EmbeddingModel, question, EmbeddingDimension).value], ResultCount)
    ensures r.outcome.Success? ==>
      && |r.calls| == 2
      && sv.query(r.calls[1].collection, r.calls[1].embeddings, ResultCount).Success?
      && var documents := sv.query(r.calls[1].collection, r.calls[1].embeddings, ResultCount).value;
      && |documents| >= 1
      && r.outcome.value == [Text(RetrievalPrompt(question, documents[0]))]
    // a failing embedding or query is a service error; an empty answer has no first fragment list
    ensures sv.embed(EmbeddingModel, question, EmbeddingDimension).Failure? ==>
      r.outcome == Failure(ServiceError(sv.embed(EmbeddingModel, question, EmbeddingDimension).error))
    ensures sv.embed(EmbeddingModel, question, EmbeddingDimension).Success? ==>
      var answer := sv.query(collection, [sv.embed(EmbeddingModel, question, EmbeddingDimension).value], ResultCount);
      && (answer.Failure? ==> r.outcome == Failure(ServiceError(answer.error)))
      && (answer.Success? && |answer.value| == 0 ==> r.outcome == Failure(IndexError(IndexOutOfRange)))
      // fragments found: the prompt of the question and the first fragment list is the one part
      && (answer.Success? && |answer.value| >= 1 ==>
            r.outcome == Success([Text(RetrievalPrompt(question, answer.value[0]))]))
  {
    var embedCall := Embed(EmbeddingModel, question, EmbeddingDimension);
    match sv.embed(EmbeddingModel, question, EmbeddingDimension)
    case Failure(msg) => Run(Failure(ServiceError(msg)), [embedCall])
    case Success(embedding) =>
      var calls := [embedCall, Query(collection, [embedding], ResultCount)];
      match sv.query(collection, [embedding], ResultCount)
      case Failure(msg) => Run(Failure(ServiceError(msg)), calls)
      case Success(documents) =>
        if |documents| == 0 then Run(Failure(IndexError(IndexOutOfRange)), calls)
        else Run(Success([Text(RetrievalPrompt(question, documents[0]))]), calls)
  }

  /** The parts handed to the model, by the branch the message takes. */
  function BuildParts(g: Grounding, sv: Services, m: Message): (r: Run<seq<Part>>)
    // the image branches fail as their own steps do: a bad header, an undecodable payload, an unreadable file
    ensures Classify(m) == InlineImage ==> r == InlineImageParts(sv, m.image.s, Caption(m.content))
    ensures Classify(m) == StoredImage ==> r == StoredImageParts(sv, StorageRoot(g), m.imagePath.s, Caption(m.content))
    // an inline image only ever decodes
    ensures m.image.Given() ==> forall c :: c in r.calls ==> c.Decode?
    // a stored image is read from under the storage root and nothing else is called
    ensures Classify(m) == StoredImage ==> r.calls == [ReadFile(JoinPath(StorageRoot(g), m.imagePath.s))]
    // both image branches give the image, then the text or the default instruction
    ensures (m.image.Given() || m.imagePath.Given()) && r.outcome.Success? ==>
      && |r.outcome.value| == 2
      && r.outcome.value[0].Blob?
      && r.outcome.value[1] == Text(if m.content.Given() then m.content.s else DefaultInstruction)
    // the inline image is built exactly when it parses and decodes, typed as its header says
    ensures Classify(m) == InlineImage ==>
      && (r.outcome.Success? <==>
            ParseImage(m.image.s).Success? && sv.decode(ParseImage(m.image.s).value.encoded).Success?)
      && (r.outcome.Success? ==>
            r.outcome.value[0] == Blob(sv.decode(ParseImage(m.image.s).value.encoded).value, ParseImage(m.image.s).value.mimeType))
    // the stored image is built exactly when its file is read, typed by its extension
    ensures Classify(m) == StoredImage ==>
      var path := JoinPath(StorageRoot(g), m.imagePath.s);
      && (r.outcome.Success? <==> sv.readFile(path).Success?)
      && (r.outcome.Success? ==> r.outcome.value[0] == Blob(sv.readFile(path).value, MimeOfPath(path)))
    // the retrieval text branch is the embed-query-prompt sequence of the text
    ensures Classify(m) == TextOnly && g.Retrieval? ==> r == RetrievalParts(sv, g.collection, m.content.s)
    // building never looks up the collection and never calls the model
    ensures forall c :: c in r.calls ==> c.Decode? || c.ReadFile? || c.Embed? || c.Query?
    // only the retrieval text branch embeds and queries
    ensures forall c :: c in r.calls && (c.Embed? || c.Query?) ==> g.Retrieval? && Classify(m) == TextOnly
    // the text itself is embedded, and five fragments are asked for with that one embedding
    ensures forall c :: c in r.calls && c.Embed? ==> m.content.Str? && c == Embed(EmbeddingModel, m.content.s, EmbeddingDimension)
    ensures forall c :: c in r.calls && c.Query? ==>
      c.nResults == ResultCount && |c.embeddings| == 1 && c.collection == g.collection
    // the plain text branch passes the text through as the one part
    ensures Classify(m) == TextOnly && g.Plain? ==> r == Run(Success([Text(m.content.s)]), [])
    ensures Classify(m) == TextOnly && r.outcome.Success? ==> |r.outcome.value| == 1
    // a message with nothing usable fails before any call
    ensures Classify(m) == NoContent ==> r == Run(Failure(ValueError(EmptyMessage)), [])
    ensures r.outcome.Success? ==> |r.outcome.value| > 0
  {
    match Classify(m)
    case InlineImage => InlineImageParts(sv, m.image.s, Caption(m.content))
    case StoredImage => StoredImageParts(sv, StorageRoot(g), m.imagePath.s, Caption(m.content))
    case TextOnly =>
      if g.Plain? then Run(Success([Text(m.content.s)]), [])
      else RetrievalParts(sv, g.collection, m.content.s)
    case NoContent => Run(Failure(ValueError(EmptyMessage)), [])
  }

  /** An empty string, a null and a missing key are the same to the classification. */
  lemma EmptyCountsAsAbsent(m: Message)
    ensures Classify(m.(image := Str(""))) == Classify(m.(image := Null)) == Classify(m.(image := Missing))
    ensures Classify(m.(imagePath := Str(""))) == Classify(m.(imagePath := Null)) == Classify(m.(imagePath := Missing))
    ensures Classify(m.(content := Str(""))) == Classify(m.(content := Null)) == Classify(m.(content := Missing))
  {
  }

  /** A given image makes the image path irrelevant, and in either image branch
      the text only chooses the caption: it changes no call. */
  lemma LowerFieldsIgnored(g: Grounding, sv: Services, m: Message, imagePath: Value, content: Value)
    ensures m.image.Given() ==> BuildParts(g, sv, m.(imagePath := imagePath)) == BuildParts(g, sv, m)
    ensures m.image.Given() || m.imagePath.Given() ==>
      BuildParts(g, sv, m.(content := content)).calls == BuildParts(g, sv, m).calls
  {
  }

  /** `send_message` with the built parts, made only once the parts exist. */
  function SendParts(sv: Services, built: Run<seq<Part>>): (r: Run<string>)
    ensures built.outcome.Failure? ==> r == Run(Failure(built.outcome.error), built.calls)
    ensures built.outcome.Success? ==>
      && r.calls == built.calls + [Send(Parts(built.outcome.value))]
      && (r.outcome.Success? <==> sv.send(Parts(built.outcome.value)).Success?)
      && (r.outcome.Success? ==> r.outcome.value == sv.send(Parts(built.outcome.value)).value)
      && (r.outcome.Failure? ==> r.outcome.error == ServiceError(sv.send(Parts(built.outcome.value)).error))
    // sending adds the model's call and nothing else
    ensures forall c :: c in r.calls ==> c in built.calls || c.Send?
    // the model is called at most once, after every other call
    ensures (forall c :: c in built.calls ==> !c.Send?) ==>
      forall i :: 0 <= i < |r.calls| - 1 ==> !r.calls[i].Send?
  {
    match built.outcome
    case Failure(e) => Run(Failure(e), built.calls)
    case Success(parts) =>
      var calls := built.calls + [Send(Parts(parts))];
      match sv.send(Parts(parts))
      case Failure(msg) => Run(Failure(ServiceError(msg)), calls)
      case Success(reply) => Run(Success(reply), calls)
  }

  /** Build the parts and send them: everything inside the outer handler. */
  function Respond(g: Grounding, sv: Services, m: Message): (r: Run<string>)
    // no collection lookup happens here, and only the retrieval text branch embeds and queries
    ensures forall c :: c in r.calls ==> c.Decode? || c.ReadFile? || c.Embed? || c.Query? || c.Send?
    ensures forall c :: c in r.calls && (c.Embed? || c.Query?) ==> g.Retrieval? && Classify(m) == TextOnly
    ensures forall c :: c in r.calls && c.Embed? ==> m.content.Str? && c == Embed(EmbeddingModel, m.content.s, EmbeddingDimension)
    ensures forall c :: c in r.calls && c.Query? ==>
      c.nResults == ResultCount && |c.embeddings| == 1 && c.collection == g.collection
    // the model is called at most once, as the last step, and its answer is the reply
    ensures forall i :: 0 <= i < |r.calls| - 1 ==> !r.calls[i].Send?
    ensures r.outcome.Success? ==>
      |r.calls| >= 1 && r.calls[|r.calls| - 1].Send?
      && sv.send(r.calls[|r.calls| - 1].payload) == Success(r.outcome.value)
    // what was built is what is sent; a failure to build is passed on without sending
    ensures var built := BuildParts(g, sv, m);
      && (built.outcome.Failure? ==> r == Run(Failure(built.outcome.error), built.calls))
      && (built.outcome.Success? ==>
            && r.calls == built.calls + [Send(Parts(built.outcome.value))]
            && (r.outcome.Success? <==> sv.send(Parts(built.outcome.value)).Success?)
            && (r.outcome.Failure? ==> r.outcome.error == ServiceError(sv.send(Parts(built.outcome.value)).error)))
  {
    var built := BuildParts(g, sv, m);
    assert forall c :: c in built.calls ==> !c.Send?;
    SendParts(sv, built)
  }

  /** The outer handler: whatever was raised becomes an HTTP 500 whose detail
      is the fixed prefix followed by the exception's text. */
  function Guard(attempt: Run<string>): (r: Run<string>)
    ensures r.calls == attempt.calls
    ensures attempt.outcome.Success? ==> r.outcome == attempt.outcome
    ensures attempt.outcome.Failure? ==>
      r.outcome == Failure(HttpException(500, FailurePrefix + Describe(attempt.outcome.error)))
    ensures r.outcome.Failure? ==>
      r.outcome.error.HttpException? && r.outcome.error.status == 500 && FailurePrefix <= r.outcome.error.detail
  {
    match attempt.outcome
    case Success(reply) => attempt
    case Failure(e) => Run(Failure(HttpException(500, FailurePrefix + Describe(e))), attempt.calls)
  }
}

=== FILE: chat_types.dfy ===
/** The data the chat utilities exchange: the inbound message dict, persisted
    history turns, the model-context contents built from them, the exceptions
    raised on the way, and the external collaborators with the calls made to them. */
module ChatTypes {
  import opened Wrappers
  import opened PyText

  type Byte = b: int | 0 <= b < 256
  type Bytes = seq<Byte>
  type Embedding = seq<real>

  /** One entry of a JSON-decoded dict: the key may be missing, hold null or hold a string. */
  datatype Value = Missing | Null | Str(s: string) {
    /** Python truthiness of `d.get(key)`: only a non-empty string counts. */
    predicate Given() {
      Str? && |s| > 0
    }
  }

  /** The inbound chat message: text `content`, a base64 or data-URI `image`,
      and an `image_path` relative to the feature's storage directory. */
  datatype Message = Message(content: Value, image: Value, imagePath: Value)

  /** The `results` entry of a persisted classification turn. */
  datatype Results = NoResults | NullResults | Results(predictionLabel: Value)

  /** One persisted turn of a chat history. */
  datatype Turn = Turn(role: Value, content: Value, results: Results)

  /** A part of a model-context content: text, inline bytes with their MIME
      type, or a text part built from a null text (`Part(text=None)`). */
  datatype Part = Text(text: string) | Blob(data: Bytes, mimeType: string) | NoText

  datatype Role = User | Model

  /** `types.UserContent` / `types.ModelContent`. */
  datatype Content = Content(role: Role, parts: seq<Part>)

  /** The exceptions the chat utilities raise or let through. */
  datatype Exception =
    | ValueError(message: string)        // includes `binascii.Error` from base64 decoding
    | IndexError(message: string)
    | KeyError(key: string)
    | TypeError(message: string)
    | OSError(message: string)           // the image file could not be opened or read
    | ServiceError(message: string)      // a remote collaborator failed
    | HttpException(status: nat, detail: string)

  /** Python `str(e)`; an HTTPException prints as "<status>: <detail>". */
  function Describe(e: Exception): (r: string)
    // a message-carrying exception prints as its message
    ensures !e.KeyError? && !e.HttpException? ==> r == e.message
    // a KeyError prints its key between single quotes
    ensures e.KeyError? ==> |r| == |e.key| + 2 && r[0] == '\'' && r[|r| - 1] == '\'' && r[1..|r| - 1] == e.key
    // an HTTPException prints its status in decimal, then ": ", then its detail
    ensures e.HttpException? ==>
      var status := NatToString(e.status);
      && |r| == |status| + 2 + |e.detail|
      && r[..|status|] == status && r[|status|..|status| + 2] == ": " && r[|status| + 2..] == e.detail
  {
    match e
    case ValueError(m) => m
    case IndexError(m) => m
    case KeyError(k) => "'" + k + "'"
    case TypeError(m) => m
    case OSError(m) => m
    case ServiceError(m) => m
    case HttpException(status, detail) => NatToString(status) + ": " + detail
  }

  const IndexOutOfRange := "list index out of range"

  /** A handle on a vector-store collection. */
  datatype Collection = Collection(name: string)

  /** What is handed to `send_message`: a list of parts, or the raw `content` value. */
  datatype Payload = Parts(parts: seq<Part>) | Raw(content: Value)

  /** One call into an external collaborator, as recorded in a run's trace. */
  datatype Call =
    | GetCollection(name: string)
    | Decode(encoded: string)
    | ReadFile(path: string)
    | Embed(model: string, text: string, dimensionality: nat)
    | Query(collection: Collection, embeddings: seq<Embedding>, nResults: nat)
    | Send(payload: Payload)

  /** The external collaborators, each answering with a value or an error message:
      base64 decoding, file reading, the vector store, the embedding model and
      the chat session's `send_message`. */
  datatype Services = Services(
    decode: string -> Result<Bytes, string>,
    readFile: string -> Result<Bytes, string>,
    getCollection: string -> Result<Collection, string>,
    embed: (string, string, nat) -> Result<Embedding, string>,
    query: (Collection, seq<Embedding>, nat) -> Result<seq<seq<string>>, string>,
    send: Payload -> Result<string, string>)

  /** The outcome of an operation together with the calls it made, in order. */
  datatype Run<+T> = Run(outcome: Result<T, Exception>, calls: seq<Call>)
}

=== FILE: history.dfy ===
/** The history reconstructor: persisted turns become model-context contents.
    `user` turns become user contents, `assistant` turns model contents, and in
    the classification utility a `cnn` turn becomes a user content naming the
    predicted label; every other role is skipped. */
module History {
  import opened Wrappers
  import opened ChatTypes
  import opened PyText

  /** Which roles a utility recognises: user and assistant, plus `cnn` for the classification utility. */
  datatype Variant = Conversation | Classification

  const ClassificationPreamble := "We have already identified the image of a cheese as "
  const NoneNotSubscriptable := "'NoneType' object is not subscriptable"

  predicate Recognised(v: Variant, t: Turn)
  {
    || t.role == Str("user")
    || t.role == Str("assistant")
    || (v == Classification && t.role == Str("cnn"))
  }

  /** Every key a turn's role makes the rebuild read is present: the role itself,
      the content of a user or assistant turn, and for a classification the
      results (not null) and their predicted label. */
  predicate KeysPresent(v: Variant, t: Turn)
  {
    && !t.role.Missing?
    && (t.role == Str("user") || t.role == Str("assistant") ==> !t.content.Missing?)
    && (v == Classification && t.role == Str("cnn") ==>
          t.results.Results? && !t.results.predictionLabel.Missing?)
  }

  /** `Part.from_text(text=turn["content"])`: a missing key raises, null gives a part without text. */
  function TextPart(content: Value): (r: Result<Part, Exception>)
    ensures r.Failure? <==> content.Missing?
    ensures r.Failure? ==> r.error == KeyError("content")
    ensures content.Str? ==> r == Success(Text(content.s))
    ensures content.Null? ==> r == Success(NoText)
  {
    match content
    case Missing => Failure(KeyError("content"))
    case Null => Success(NoText)
    case Str(s) => Success(Text(s))
  }

  /** The f-string rendering of `results['prediction_label']`. */
  function LabelText(prediction: Value): (r: Result<string, Exception>)
    ensures r.Failure? <==> prediction.Missing?
    ensures prediction.Str? ==> r == Success(prediction.s)
    // a missing label raises KeyError; a null label prints as `None`
    ensures r.Failure? ==> r.error == KeyError("prediction_label")
    ensures prediction.Null? ==> r == Success("None")
  {
    match prediction
    case Missing => Failure(KeyError("prediction_label"))
    case Null => Success("None")
    case Str(s) => Success(s)
  }

  /** One turn: a content for a recognised role, None for a skipped one, or the
      exception its missing keys raise. */
  function ConvertTurn(v: Variant, t: Turn): (r: Result<Option<Content>, Exception>)
    ensures t.role.Missing? ==> r == Failure(KeyError("role"))
    ensures r.Success? ==> (r.value.Some? <==> Recognised(v, t))
    ensures !t.role.Missing? && !Recognised(v, t) ==> r == Success(None)
    ensures r.Success? && r.value.Some? ==>
      && |r.value.value.parts| == 1
      && !r.value.value.parts[0].Blob?
      && (r.value.value.role == Model <==> t.role == Str("assistant"))
    // a user or assistant turn carries its text as the one part; a classification names its label
    ensures t.role == Str("user") && t.content.Str? ==> r == Success(Some(Content(User, [Text(t.content.s)])))
    ensures t.role == Str("assistant") && t.content.Str? ==> r == Success(Some(Content(Model, [Text(t.content.s)])))
    ensures v == Classification && t.role == Str("cnn") && t.results.Results? && t.results.predictionLabel.Str? ==>
      r == Success(Some(Content(User, [Text(ClassificationPreamble + t.results.predictionLabel.s)])))
    ensures r.Failure? ==> r.error.KeyError? || r.error.TypeError?
    ensures r.Failure? && v == Conversation ==> r.error == KeyError("role") || r.error == KeyError("content")
    // a turn converts exactly when the keys its role reads are there; each missing key raises its own error
    ensures r.Success? <==> KeysPresent(v, t)
    ensures !t.role.Missing? && (t.role == Str("user") || t.role == Str("assistant")) && t.content.Missing? ==>
      r == Failure(KeyError("content"))
    ensures v == Classification && t.role == Str("cnn") ==>
      && (t.results.NoResults? ==> r == Failure(KeyError("results")))
      && (t.results.NullResults? ==> r == Failure(TypeError(NoneNotSubscriptable)))
      && (t.results.Results? && t.results.predictionLabel.Missing? ==> r == Failure(KeyError("prediction_label")))
  {
    if t.role.Missing? then Failure(KeyError("role"))
    else if t.role == Str("user") || t.role == Str("assistant") then
      match TextPart(t.content)
      case Failure(e) => Failure(e)
      case Success(p) => Success(Some(Content(if t.role == Str("user") then User else Model, [p])))
    else if v == Classification && t.role == Str("cnn") then
      match t.results
      case NoResults => Failure(KeyError("results"))
      case NullResults => Failure(TypeError(NoneNotSubscriptable))
      case Results(prediction) =>
        match LabelText(prediction)
        case Failure(e) => Failure(e)
        case Success(text) => Success(Some(Content(User, [Text(ClassificationPreamble + text)])))
    else Success(None)
  }

  /** How many turns a utility keeps. */
  function CountRecognised(v: Variant, turns: seq<Turn>): nat
  {
    if |turns| == 0 then 0
    else CountRecognised(v, turns[..|turns| - 1]) + (if Recognised(v, turns[|turns| - 1]) then 1 else 0)
  }

  /** The whole history, turn by turn in order; the first failing turn's
      exception aborts it. */
  function Rebuild(v: Variant, turns: seq<Turn>): (r: Result<seq<Content>, Exception>)
    ensures r.Success? <==> forall i :: 0 <= i < |turns| ==> ConvertTurn(v, turns[i]).Success?
    ensures r.Success? ==> |r.value| == CountRecognised(v, turns)
    ensures r.Success? ==> forall k :: 0 <= k < |r.value| ==> |r.value[k].parts| == 1 && !r.value[k].parts[0].Blob?
    ensures r.Failure? ==> exists i :: 0 <= i < |turns| && ConvertTurn(v, turns[i]) == Failure(r.error)
    // the exception is that of the earliest turn that fails to convert
    ensures r.Failure? ==>
      exists i :: 0 <= i < |turns|
        && (forall j :: 0 <= j < i ==> ConvertTurn(v, turns[j]).Success?)
        && ConvertTurn(v, turns[i]) == Failure(r.error)
    decreases |turns|
  {
    if |turns| == 0 then Success([])
    else
      var front := turns[..|turns| - 1];
      assert forall i :: 0 <= i < |front| ==> front[i] == turns[i];
      match Rebuild(v, front)
      case Failure(e) => Failure(e)
      case Success(history) =>
        match ConvertTurn(v, turns[|turns| - 1])
        case Failure(e) => Failure(e)
        case Success(None) => Success(history)
        case Success(Some(c)) => Success(history + [c])
  }

  /** Two rebuilt pieces, put together: the first failure wins. */
  function Then(first: Result<seq<Content>, Exception>, second: Result<seq<Content>, Exception>): Result<seq<Content>, Exception>
  {
    match first
    case Failure(e) => Failure(e)
    case Success(a) =>
      match second
      case Failure(e) => Failure(e)
      case Success(b) => Success(a + b)
  }

  /** Rebuilding a concatenation rebuilds each piece and concatenates the results,
      so turns keep their relative order and nothing is merged. */
  lemma {:induction false} RebuildAppend(v: Variant, xs: seq<Turn>, ys: seq<Turn>)
    ensures Rebuild(v, xs + ys) == Then(Rebuild(v, xs), Rebuild(v, ys))
    decreases |ys|
  {
    if |ys| == 0 {
      assert xs + ys == xs;
      if Rebuild(v, xs).Success? {
        assert Rebuild(v, xs).value + [] == Rebuild(v, xs).value;
      }
    } else {
      var ys' := ys[..|ys| - 1];
      var t := ys[|ys| - 1];
      var zs := xs + ys;
      assert zs[..|zs| - 1] == xs + ys';
      assert zs[|zs| - 1] == t;
      RebuildAppend(v, xs, ys');
      match Rebuild(v, xs)
      case Failure(e) =>
      case Success(a) =>
        match Rebuild(v, ys')
        case Failure(e) =>
        case Success(b) =>
          match ConvertTurn(v, t)
          case Failure(e) =>
          case Success(None) =>
          case Success(Some(c)) =>
            Assoc(a, b, [c]);
    }
  }

  /** The one-turn case of `RebuildAppend`: appending a turn appends its conversion. */
  lemma RebuildSnoc(v: Variant, xs: seq<Turn>, t: Turn)
    ensures Rebuild(v, xs + [t]) == Then(Rebuild(v, xs), Rebuild(v, [t]))
  {
    RebuildAppend(v, xs, [t]);
  }

  /** The exception of the earliest failing turn is the one raised. */
  lemma FirstFailureWins(v: Variant, turns: seq<Turn>, i: nat)
    requires i < |turns|
    requires forall j :: 0 <= j < i ==> ConvertTurn(v, turns[j]).Success?
    requires ConvertTurn(v, turns[i]).Failure?
    ensures Rebuild(v, turns) == Failure(ConvertTurn(v, turns[i]).error)
  {
    var xs := turns[..i];
    var ys := turns[i + 1..];
    assert turns == xs + ([turns[i]] + ys);
    assert forall j :: 0 <= j < |xs| ==> xs[j] == turns[j];
    assert Rebuild(v, xs).Success?;
    RebuildOne(v, turns[i]);
    RebuildAppend(v, [turns[i]], ys);
    RebuildAppend(v, xs, [turns[i]] + ys);
  }

  /** A single turn rebuilds to its own conversion. */
  lemma RebuildOne(v: Variant, t: Turn)
    ensures ConvertTurn(v, t).Failure? ==> Rebuild(v, [t]) == Failure(ConvertTurn(v, t).error)
    ensures ConvertTurn(v, t) == Success(None) ==> Rebuild(v, [t]) == Success([])
    ensures ConvertTurn(v, t).Success? && ConvertTurn(v, t).value.Some? ==>
      Rebuild(v, [t]) == Success([ConvertTurn(v, t).value.value])
  {
    assert [t][..0] == [];
    assert Rebuild(v, [t][..0]) == Success([]);
    match ConvertTurn(v, t)
    case Failure(e) =>
    case Success(None) =>
    case Success(Some(c)) =>
      assert [] + [c] == [c];
  }

  /** A turn of an unrecognised (present) role leaves the rebuilt history unchanged. */
  lemma SkippedTurn(v: Variant, xs: seq<Turn>, t: Turn)
    requires !t.role.Missing? && !Recognised(v, t)
    ensures Rebuild(v, xs + [t]) == Rebuild(v, xs)
  {
    RebuildSnoc(v, xs, t);
    assert [t][..0] == [];
  }

  /** A classification turn names its label in a user content; the other utilities skip it. */
  lemma ClassificationTurn(role: Value, name: string, xs: seq<Turn>, content: Value)
    ensures Rebuild(Classification, [Turn(Str("cnn"), content, Results(Str(name)))])
         == Success([Content(User, [Text(ClassificationPreamble + name)])])
    ensures Rebuild(Conversation, xs + [Turn(Str("cnn"), content, Results(Str(name)))]) == Rebuild(Conversation, xs)
  {
    var t := Turn(Str("cnn"), content, Results(Str(name)));
    assert [t][..0] == [];
    var c := Content(User, [Text(ClassificationPreamble + name)]);
    assert ConvertTurn(Classification, t) == Success(Some(c));
    assert [] + [c] == [c];
    SkippedTurn(Conversation, xs, t);
  }

  /** A content made of a single text part, the shape a persisted turn can hold. */
  predicate Textual(c: Content)
  {
    |c.parts| == 1 && c.parts[0].Text?
  }

  /** The persisted form of a text-only history: user contents as `user` turns,
      model contents as `assistant` turns. */
  function Serialize(history: seq<Content>): (turns: seq<Turn>)
    requires forall k :: 0 <= k < |history| ==> Textual(history[k])
    ensures |turns| == |history|
  {
    seq(|history|, k requires 0 <= k < |history| && Textual(history[k]) =>
      Turn(Str(if history[k].role == User then "user" else "assistant"), Str(history[k].parts[0].text), NoResults))
  }

  /** Rebuilding a serialized text-only history gives it back exactly, in either utility. */
  lemma {:induction false} RebuildSerialize(v: Variant, history: seq<Content>)
    requires forall k :: 0 <= k < |history| ==> Textual(history[k])
    ensures Rebuild(v, Serialize(history)) == Success(history)
    decreases |history|
  {
    if |history| > 0 {
      var front := history[..|history| - 1];
      var c := history[|history| - 1];
      assert front + [c] == history;
      assert forall k :: 0 <= k < |front| ==> front[k] == history[k];
      RebuildSerialize(v, front);
      SerializeSnoc(front, c);
      var t := Serialize([c])[0];
      ConvertSerialized(v, c);
      RebuildOne(v, t);
      RebuildSnoc(v, Serialize(front), t);
    }
  }

  /** A persisted text content converts back to itself. */
  lemma ConvertSerialized(v: Variant, c: Content)
    requires Textual(c)
    ensures ConvertTurn(v, Serialize([c])[0]) == Success(Some(c))
  {
    assert c == Content(c.role, [Text(c.parts[0].text)]);
  }

  /** A conversation turn: a user or assistant role with a text and no results. */
  predicate Conversational(t: Turn)
  {
    (t.role == Str("user") || t.role == Str("assistant")) && t.content.Str? && t.results == NoResults
  }

  /** Serializing the rebuild of conversation turns gives the turns back exactly. */
  lemma {:induction false} SerializeRebuild(v: Variant, turns: seq<Turn>)
    requires forall i :: 0 <= i < |turns| ==> Conversational(turns[i])
    ensures Rebuild(v, turns).Success?
    ensures forall k :: 0 <= k < |Rebuild(v, turns).value| ==> Textual(Rebuild(v, turns).value[k])
    ensures Serialize(Rebuild(v, turns).value) == turns
    decreases |turns|
  {
    if |turns| > 0 {
      var front := turns[..|turns| - 1];
      var t := turns[|turns| - 1];
      assert front + [t] == turns;
      assert forall i :: 0 <= i < |front| ==> front[i] == turns[i];
      SerializeRebuild(v, front);
      var h := Rebuild(v, front).value;
      var c := ConvertConversational(v, t);
      RebuildOne(v, t);
      RebuildSnoc(v, front, t);
      SerializeSnoc(h, c);
    }
  }

  /** A conversation turn converts to a text content that is persisted as the same turn. */
  lemma ConvertConversational(v: Variant, t: Turn) returns (c: Content)
    requires Conversational(t)
    ensures ConvertTurn(v, t) == Success(Some(c))
    ensures Textual(c) && Serialize([c]) == [t]
  {
    c := Content(if t.role == Str("user") then User else Model, [Text(t.content.s)]);
  }

  lemma SerializeSnoc(history: seq<Content>, c: Content)
    requires forall k :: 0 <= k < |history| ==> Textual(history[k])
    requires Textual(c)
    ensures forall k :: 0 <= k < |history + [c]| ==> Textual((history + [c])[k])
    ensures Serialize(history + [c]) == Serialize(history) + Serialize([c])
  {
  }

  /** `rebuild_chat_session`'s loop: append each recognised turn's content, stop at the first exception. */
  method RebuildHistory(v: Variant, turns: seq<Turn>) returns (r: Result<seq<Content>, Exception>)
    ensures r == Rebuild(v, turns)
  {
    var formatted: seq<Content> := [];
    var i := 0;
    while i < |turns|
      invariant 0 <= i <= |turns|
      invariant Rebuild(v, turns[..i]) == Success(formatted)
    {
      assert turns[..i + 1][..i] == turns[..i];
      var converted := ConvertTurn(v, turns[i]);
      if converted.Failure? {
        FirstFailureWinsAfter(v, turns, i);
        return Failure(converted.error);
      }
      if converted.value.Some? {
        formatted := formatted + [converted.value.value];
      }
      i := i + 1;
    }
    assert turns[..i] == turns;
    r := Success(formatted);
  }

  /** When a prefix rebuilds and the next turn fails, the whole history fails with that turn's exception. */
  lemma FirstFailureWinsAfter(v: Variant, turns: seq<Turn>, i: nat)
    requires i < |turns|
    requires Rebuild(v, turns[..i]).Success?
    requires ConvertTurn(v, turns[i]).Failure?
    ensures Rebuild(v, turns) == Failure(ConvertTurn(v, turns[i]).error)
  {
    var front := turns[..i];
    assert forall j :: 0 <= j < i ==> ConvertTurn(v, turns[j]).Success? by {
      forall j | 0 <= j < i ensures ConvertTurn(v, turns[j]).Success? {
        assert front[j] == turns[j];
      }
    }
    FirstFailureWins(v, turns, i);
  }
}

=== FILE: image_input.dfy ===
/** Turning the two image fields of a message into a MIME type: the inline
    `image` field (a data URI or a bare base64 string) and the stored
    `image_path` field (typed by its file extension). */
module ImageInput {
  import opened Wrappers
  import opened PyText
  import opened PyPath
  import opened ChatTypes

  const Jpeg := "image/jpeg"
  const Png := "image/png"
  const Gif := "image/gif"

  /** An inline image field split into its MIME type and its base64 text. */
  datatype ImageData = ImageData(mimeType: string, encoded: string)

  /** `header.split(":")[1].split(";")[0]`, which raises IndexError when the
      header has no second `:`-field. */
  function MimeOfHeader(header: string): (r: Result<string, Exception>)
    ensures r.Failure? <==> ':' !in header
    ensures r.Failure? ==> r.error == IndexError(IndexOutOfRange)
    ensures r.Success? ==> ':' !in r.value && ';' !in r.value
  {
    var fields := Split(header, ':');
    if |fields| < 2 then Failure(IndexError(IndexOutOfRange))
    else Success(Split(fields[1], ';')[0])
  }

  /** The MIME type is the text after the header's first `:`, cut at the next
      `:` or `;`. */
  lemma MimeOfHeaderCut(a: string, m: string, b: string)
    requires ':' !in a && ':' !in m && ';' !in m
    requires b == [] || b[0] == ':' || b[0] == ';'
    ensures MimeOfHeader(a + [':'] + (m + b)) == Success(m)
  {
    SplitCons(a, ':', m + b);
    var f := Split(m + b, ':')[0];
    var s := m + b;
    assert f == m + f[|m|..];
    if |f| > |m| {
      assert f[|m|] == s[|m|] == b[0];
    }
    SplitHead(m, f[|m|..], ';');
  }

  /** The inline `image` field: with a comma it is `<header>,<base64>` and the
      MIME type comes from the header; without one it is bare base64 taken as JPEG. */
  function ParseImage(image: string): (r: Result<ImageData, Exception>)
    ensures ',' !in image ==> r == Success(ImageData(Jpeg, image))
    ensures r.Failure? ==> ',' in image && r.error == IndexError(IndexOutOfRange)
    ensures ',' in image && r.Success? ==>
      var k := |image| - |r.value.encoded| - 1;
      && 0 <= k && image[k] == ',' && ',' !in image[..k]
      && image[k + 1..] == r.value.encoded
      && MimeOfHeader(image[..k]) == Success(r.value.mimeType)
  {
    match IndexOf(image, ',')
    case None => Success(ImageData(Jpeg, image))
    case Some(k) =>
      match MimeOfHeader(image[..k])
      case Failure(e) => Failure(e)
      case Success(mime) => Success(ImageData(mime, image[k + 1..]))
  }

  /** A data URI `data:<mime>;base64,<payload>` yields its MIME type and the
      whole payload, commas included; no MIME type is refused. */
  lemma ParseDataUri(mime: string, encoded: string)
    requires ':' !in mime && ';' !in mime && ',' !in mime
    ensures ParseImage("data:" + mime + ";base64," + encoded) == Success(ImageData(mime, encoded))
  {
    var header := "data" + [':'] + (mime + ";base64");
    assert "data:" + mime + ";base64," + encoded == header + [','] + encoded;
    assert ',' !in header;
    MimeOfHeaderCut("data", mime, ";base64");
    ParseAtComma(header, encoded);
  }

  /** The header ends at the first comma; everything after it is the payload. */
  lemma ParseAtComma(header: string, encoded: string)
    requires ',' !in header
    ensures MimeOfHeader(header).Success? ==>
      ParseImage(header + [','] + encoded) == Success(ImageData(MimeOfHeader(header).value, encoded))
    ensures MimeOfHeader(header).Failure? ==> ParseImage(header + [','] + encoded) == Failure(MimeOfHeader(header).error)
  {
    var image := header + [','] + encoded;
    IndexOfFirst(header, ',', encoded);
    assert image[..|header|] == header;
    assert image[|header| + 1..] == encoded;
  }

  /** The extension table of the stored-image branch, compared case-insensitively,
      with JPEG for anything it does not list. */
  function MimeOfSuffix(suffix: string): (r: string)
    ensures r in {Jpeg, Png, Gif}
    ensures r == Png <==> Lower(suffix) == ".png"
    ensures r == Gif <==> Lower(suffix) == ".gif"
  {
    var s := Lower(suffix);
    if s == ".jpg" || s == ".jpeg" then Jpeg
    else if s == ".png" then Png
    else if s == ".gif" then Gif
    else Jpeg
  }

  /** The MIME type of a stored image, from the suffix of its path. */
  function MimeOfPath(path: string): (r: string)
    ensures r in {Jpeg, Png, Gif}
  {
    MimeOfSuffix(Suffix(path))
  }

  /** A stored image is typed by its own extension, whatever directory holds it. */
  lemma MimeOfChild(dir: string, stem: string, ext: string)
    requires stem != "" && '/' !in stem
    requires |ext| >= 2 && ext[0] == '.' && '.' !in ext[1..] && '/' !in ext
    ensures MimeOfPath(dir + "/" + stem + ext) == MimeOfSuffix(ext)
  {
    SuffixOfChild(dir, stem, ext);
  }

  /** A name without a usable extension (no dot after its first character, or a
      trailing dot) is taken as JPEG. */
  lemma MimeWithoutExtension(dir: string, name: string)
    requires name != "" && name != "." && '/' !in name
    requires '.' !in name[1..] || name[|name| - 1] == '.'
    ensures MimeOfPath(dir + "/" + name) == Jpeg
  {
    NameOfChild(dir, name);
    match LastIndexOf(name, '.')
    case None =>
    case Some(i) =>
  }
}

=== FILE: llm_cnn_utils.dfy ===
/** The classification chat utility (`api/utils/llm_cnn_utils.py`): the
    message text is sent as it is, and a persisted history may hold `cnn`
    turns recording an earlier image classification. */
module LlmCnnUtils {
  import opened Wrappers
  import opened ChatTypes
  import History

  /** `generate_chat_response`: `message["content"]` is sent as the whole payload,
      without classification, image handling or error wrapping. */
  function GenerateChatResponse(sv: Services, m: Message): (r: Run<string>)
    ensures m.content.Missing? ==> r == Run(Failure(KeyError("content")), [])
    ensures !m.content.Missing? ==> r.calls == [Send(Raw(m.content))]
    ensures r.outcome.Success? <==> !m.content.Missing? && sv.send(Raw(m.content)).Success?
    ensures r.outcome.Success? ==> r.outcome.value == sv.send(Raw(m.content)).value
    // a failing model call raises its own error, unwrapped
    ensures !m.content.Missing? && sv.send(Raw(m.content)).Failure? ==>
      r.outcome == Failure(ServiceError(sv.send(Raw(m.content)).error))
  {
    match m.content
    case Missing => Run(Failure(KeyError("content")), [])
    case _ =>
      match sv.send(Raw(m.content))
      case Failure(msg) => Run(Failure(ServiceError(msg)), [Send(Raw(m.content))])
      case Success(reply) => Run(Success(reply), [Send(Raw(m.content))])
  }

  /** The image fields play no part: only the text decides what is sent. */
  lemma ImagesIgnored(sv: Services, m: Message, image: Value, imagePath: Value)
    ensures GenerateChatResponse(sv, m) == GenerateChatResponse(sv, m.(image := image, imagePath := imagePath))
  {
  }

  /** `rebuild_chat_session`, with `cnn` turns recognised. */
  function RebuildChatSession(turns: seq<Turn>): (r: Result<seq<Content>, Exception>)
    // it fails exactly when a turn lacks a key its role needs, or a classification's results are null
    ensures r.Success? <==> forall i :: 0 <= i < |turns| ==>
      && !turns[i].role.Missing?
      && (turns[i].role == Str("user") || turns[i].role == Str("assistant") ==> !turns[i].content.Missing?)
      && (turns[i].role == Str("cnn") ==> turns[i].results.Results? && !turns[i].results.predictionLabel.Missing?)
    // the exception is that of the earliest turn missing a key its role reads
    ensures r.Failure? ==>
      exists i :: 0 <= i < |turns|
        && (forall j :: 0 <= j < i ==> History.KeysPresent(History.Classification, turns[j]))
        && !History.KeysPresent(History.Classification, turns[i])
        && r.error == (if turns[i].role.Missing? then KeyError("role")
                       else if turns[i].role != Str("cnn") then KeyError("content")
                       else if turns[i].results.NoResults? then KeyError("results")
                       else if turns[i].results.NullResults? then TypeError(History.NoneNotSubscriptable)
                       else KeyError("prediction_label"))
    // one content per user, assistant or cnn turn, in order; every other role dropped
    ensures r.Success? ==> |r.value| == History.CountRecognised(History.Classification, turns)
    ensures r.Success? ==> forall k :: 0 <= k < |r.value| ==>
      |r.value[k].parts| == 1 && !r.value[k].parts[0].Blob?
  {
    History.Rebuild(History.Classification, turns)
  }
}

=== FILE: llm_rag_utils.dfy ===
/** The retrieval chat utility (`api/utils/llm_rag_utils.py`): images are
    handled as in the plain utility but read from `chat-history/llm-rag`, and
    text is grounded in five fragments fetched from the vector store. */
module LlmRagUtils {
  import opened Wrappers
  import opened PyPath
  import opened ChatTypes
  import opened ChatEngine
  import History
  import LlmUtils

  /** `generate_chat_response`: look up the collection, then build, send and guard. */
  function GenerateChatResponse(sv: Services, m: Message): (r: Run<string>)
    // the caller only ever sees an HTTP 500 carrying the fixed prefix
    ensures r.outcome.Failure? ==>
      r.outcome.error.HttpException? && r.outcome.error.status == 500
      && FailurePrefix <= r.outcome.error.detail
    // the collection is looked up first, whatever the message
    ensures |r.calls| >= 1 && r.calls[0] == GetCollection(CollectionName)
    // only a text-only message is embedded and queried, for five results of its one embedding
    ensures forall c :: c in r.calls && (c.Embed? || c.Query?) ==> Classify(m) == TextOnly
    ensures forall c :: c in r.calls && c.Embed? ==>
      m.content.Str? && c == Embed(EmbeddingModel, m.content.s, EmbeddingDimension)
    ensures forall c :: c in r.calls && c.Query? ==> c.nResults == ResultCount && |c.embeddings| == 1
    // the model is called at most once, as the last step, and its answer is the reply
    ensures forall i :: 0 <= i < |r.calls| - 1 ==> !r.calls[i].Send?
    ensures r.outcome.Success? ==>
      |r.calls| >= 2 && r.calls[|r.calls| - 1].Send?
      && sv.send(r.calls[|r.calls| - 1].payload) == Success(r.outcome.value)
    // a failed lookup is reported as a 500 and nothing else is called
    ensures sv.getCollection(CollectionName).Failure? ==>
      r == Run(Failure(HttpException(500, FailurePrefix + sv.getCollection(CollectionName).error)),
               [GetCollection(CollectionName)])
    // after the lookup: answered exactly when the parts are built and the model answers them
    ensures sv.getCollection(CollectionName).Success? ==>
      var built := BuildParts(Retrieval(sv.getCollection(CollectionName).value), sv, m);
      && (r.outcome.Success? <==> built.outcome.Success? && sv.send(Parts(built.outcome.value)).Success?)
      && (built.outcome.Success? ==>
            r.calls == [GetCollection(CollectionName)] + built.calls + [Send(Parts(built.outcome.value))])
      && (built.outcome.Success? && sv.send(Parts(built.outcome.value)).Failure? ==>
            r.outcome == Failure(HttpException(500, FailurePrefix + sv.send(Parts(built.outcome.value)).error)))
      && (built.outcome.Failure? ==>
            r == Run(Failure(HttpException(500, FailurePrefix + Describe(built.outcome.error))),
                     [GetCollection(CollectionName)] + built.calls))
  {
    Guard(Attempt(sv, m))
  }

  /** Everything inside the outer handler: the lookup, then the shared respond step. */
  function Attempt(sv: Services, m: Message): (r: Run<string>)
    ensures |r.calls| >= 1 && r.calls[0] == GetCollection(CollectionName)
    ensures forall c :: c in r.calls && (c.Embed? || c.Query?) ==> Classify(m) == TextOnly
    ensures forall c :: c in r.calls && c.Embed? ==>
      m.content.Str? && c == Embed(EmbeddingModel, m.content.s, EmbeddingDimension)
    ensures forall c :: c in r.calls && c.Query? ==> c.nResults == ResultCount && |c.embeddings| == 1
    ensures forall i :: 0 <= i < |r.calls| - 1 ==> !r.calls[i].Send?
    ensures r.outcome.Success? ==>
      |r.calls| >= 2 && r.calls[|r.calls| - 1].Send?
      && sv.send(r.calls[|r.calls| - 1].payload) == Success(r.outcome.value)
    ensures sv.getCollection(CollectionName).Failure? ==>
      r == Run(Failure(ServiceError(sv.getCollection(CollectionName).error)), [GetCollection(CollectionName)])
    ensures sv.getCollection(CollectionName).Success? ==>
      var built := BuildParts(Retrieval(sv.getCollection(CollectionName).value), sv, m);
      && (r.outcome.Success? <==> built.outcome.Success? && sv.send(Parts(built.outcome.value)).Success?)
      && (built.outcome.Success? ==>
            r.calls == [GetCollection(CollectionName)] + built.calls + [Send(Parts(built.outcome.value))])
      && (built.outcome.Success? && sv.send(Parts(built.outcome.value)).Failure? ==>
            r.outcome == Failure(ServiceError(sv.send(Parts(built.outcome.value)).error)))
      && (built.outcome.Failure? ==>
            r == Run(Failure(built.outcome.error), [GetCollection(CollectionName)] + built.calls))
  {
    var lookup := GetCollection(CollectionName);
    if sv.getCollection(CollectionName).Failure? then
      Run(Failure(ServiceError(sv.getCollection(CollectionName).error)), [lookup])
    else (
      var g := Retrieval(sv.getCollection(CollectionName).value);
      var built := BuildParts(g, sv, m);
      var sent := Respond(g, sv, m);
      assert built.outcome.Success? && sv.send(Parts(built.outcome.value)).Failure? ==>
        sent.outcome == Failure(ServiceError(sv.send(Parts(built.outcome.value)).error));
      LookupFirst(lookup, sent.calls);
      Run(sent.outcome, [lookup] + sent.calls))
  }

  /** A lookup put in front of a trace keeps the model's call last. */
  lemma LookupFirst(lookup: Call, calls: seq<Call>)
    requires !lookup.Send?
    requires forall i :: 0 <= i < |calls| - 1 ==> !calls[i].Send?
    ensures forall c :: c in [lookup] + calls ==> c == lookup || c in calls
    ensures forall i :: 0 <= i < |[lookup] + calls| - 1 ==> !([lookup] + calls)[i].Send?
  {
    forall i | 0 <= i < |[lookup] + calls| - 1
      ensures !([lookup] + calls)[i].Send?
    {
      if i > 0 {
        assert ([lookup] + calls)[i] == calls[i - 1];
      }
    }
  }

  /** An empty message still reaches the collection lookup, and then fails
      without any further call. */
  lemma EmptyMessageAfterLookup(sv: Services, m: Message)
    requires Classify(m) == NoContent
    ensures GenerateChatResponse(sv, m).calls == [GetCollection(CollectionName)]
    ensures sv.getCollection(CollectionName).Success? ==>
      GenerateChatResponse(sv, m).outcome == Failure(HttpException(500, FailurePrefix + EmptyMessage))
  {
  }

  /** A stored image is read from under `chat-history/llm-rag`, right after the lookup. */
  lemma StoredImageRoot(sv: Services, m: Message)
    requires Classify(m) == StoredImage
    requires sv.getCollection(CollectionName).Success?
    ensures GenerateChatResponse(sv, m).calls[1] == ReadFile(JoinPath("chat-history/llm-rag", m.imagePath.s))
  {
    var built := BuildParts(Retrieval(sv.getCollection(CollectionName).value), sv, m);
    assert built.calls == [ReadFile(JoinPath(StorageRoot(Retrieval(sv.getCollection(CollectionName).value)), m.imagePath.s))];
    assert SendParts(sv, built).calls[0] == built.calls[0];
  }

  /** A text-only message that gets an answer was sent as one part: the
      retrieval prompt of its text and the first list of fragments the query returned. */
  lemma TextSentAsPrompt(sv: Services, m: Message)
    requires Classify(m) == TextOnly
    requires GenerateChatResponse(sv, m).outcome.Success?
    ensures var calls := GenerateChatResponse(sv, m).calls;
      && |calls| == 4
      && calls[2].Query?
      && sv.query(calls[2].collection, calls[2].embeddings, ResultCount).Success?
      && |sv.query(calls[2].collection, calls[2].embeddings, ResultCount).value| >= 1
      && calls[3] == Send(Parts([Text(RetrievalPrompt(m.content.s,
                       sv.query(calls[2].collection, calls[2].embeddings, ResultCount).value[0]))]))
  {
    var collection := sv.getCollection(CollectionName).value;
    var built := RetrievalParts(sv, collection, m.content.s);
    assert BuildParts(Retrieval(collection), sv, m) == built;
    assert SendParts(sv, built).calls == built.calls + [Send(Parts(built.outcome.value))];
  }

  /** Inline images behave exactly as in the plain utility, after the lookup. */
  lemma InlineImageAsPlain(sv: Services, m: Message)
    requires Classify(m) == InlineImage
    requires sv.getCollection(CollectionName).Success?
    ensures GenerateChatResponse(sv, m).outcome == LlmUtils.GenerateChatResponse(sv, m).outcome
    ensures GenerateChatResponse(sv, m).calls == [GetCollection(CollectionName)] + LlmUtils.GenerateChatResponse(sv, m).calls
  {
    var collection := sv.getCollection(CollectionName).value;
    assert BuildParts(Retrieval(collection), sv, m) == BuildParts(Plain, sv, m);
  }

  /** `rebuild_chat_session`: the same history as the plain utility's. */
  function RebuildChatSession(turns: seq<Turn>): (r: Result<seq<Content>, Exception>)
    ensures r == LlmUtils.RebuildChatSession(turns)
    ensures r.Success? ==> |r.value| == History.CountRecognised(History.Conversation, turns)
  {
    History.Rebuild(History.Conversation, turns)
  }
}

=== FILE: llm_utils.dfy ===
/** The plain chat utility (`api/utils/llm_utils.py`): images and text go to
    the model as they are, stored images are read from `chat-history/llm`. */
module LlmUtils {
  import opened Wrappers
  import opened PyText
  import opened PyPath
  import opened ChatTypes
  import opened ImageInput
  import opened ChatEngine
  import History

  /** `generate_chat_response`. */
  function GenerateChatResponse(sv: Services, m: Message): (r: Run<string>)
    // the caller only ever sees an HTTP 500 carrying the fixed prefix
    ensures r.outcome.Failure? ==>
      r.outcome.error.HttpException? && r.outcome.error.status == 500
      && FailurePrefix <= r.outcome.error.detail
    // no vector store and no embedding model are involved
    ensures forall c :: c in r.calls ==> c.Decode? || c.ReadFile? || c.Send?
    // the model is called at most once, as the last step, and its answer is the reply
    ensures forall i :: 0 <= i < |r.calls| - 1 ==> !r.calls[i].Send?
    ensures r.outcome.Success? ==>
      |r.calls| >= 1 && r.calls[|r.calls| - 1].Send?
      && sv.send(r.calls[|r.calls| - 1].payload) == Success(r.outcome.value)
    // answered exactly when the parts are built and the model answers them; a failure to
    // build reaches the caller as a 500 naming that failure, and nothing is sent
    ensures var built := BuildParts(Plain, sv, m);
      && (r.outcome.Success? <==> built.outcome.Success? && sv.send(Parts(built.outcome.value)).Success?)
      && (built.outcome.Success? ==> r.calls == built.calls + [Send(Parts(built.outcome.value))])
      && (built.outcome.Success? && sv.send(Parts(built.outcome.value)).Failure? ==>
            r.outcome == Failure(HttpException(500, FailurePrefix + sv.send(Parts(built.outcome.value)).error)))
      && (built.outcome.Failure? ==>
            r == Run(Failure(HttpException(500, FailurePrefix + Describe(built.outcome.error))), built.calls))
  {
    var built := BuildParts(Plain, sv, m);
    var sent := Respond(Plain, sv, m);
    assert built.outcome.Success? && sv.send(Parts(built.outcome.value)).Failure? ==>
      sent.outcome == Failure(ServiceError(sv.send(Parts(built.outcome.value)).error));
    Guard(sent)
  }

  /** A message without image, image path or text fails before any call. */
  lemma EmptyMessageFails(sv: Services, m: Message)
    requires Classify(m) == NoContent
    ensures GenerateChatResponse(sv, m) == Run(Failure(HttpException(500, FailurePrefix + EmptyMessage)), [])
  {
  }

  /** Text alone is sent verbatim as the only part. */
  lemma TextSentVerbatim(sv: Services, m: Message)
    requires Classify(m) == TextOnly
    ensures GenerateChatResponse(sv, m).calls == [Send(Parts([Text(m.content.s)]))]
  {
  }

  /** A decodable inline image that the model answers: one decode, then one send of
      the image's bytes under the MIME type its header names, followed by the caption;
      the model's answer is the reply. */
  lemma InlineImageAnswered(sv: Services, m: Message)
    requires Classify(m) == InlineImage && ParseImage(m.image.s).Success?
    requires sv.decode(ParseImage(m.image.s).value.encoded).Success?
    requires var d := ParseImage(m.image.s).value;
      sv.send(Parts([Blob(sv.decode(d.encoded).value, d.mimeType), Caption(m.content)])).Success?
    ensures var d := ParseImage(m.image.s).value;
      var payload := Parts([Blob(sv.decode(d.encoded).value, d.mimeType),
                            Text(if m.content.Given() then m.content.s else DefaultInstruction)]);
      GenerateChatResponse(sv, m) == Run(Success(sv.send(payload).value), [Decode(d.encoded), Send(payload)])
  {
    var d := ParseImage(m.image.s).value;
    var parts := [Blob(sv.decode(d.encoded).value, d.mimeType), Caption(m.content)];
    assert BuildParts(Plain, sv, m) == Run(Success(parts), [Decode(d.encoded)]);
  }

  /** A readable stored image that the model answers: one read under
      `chat-history/llm`, then one send of the file's bytes, typed by the path's
      extension, followed by the caption; the model's answer is the reply. */
  lemma StoredImageAnswered(sv: Services, m: Message)
    requires Classify(m) == StoredImage
    requires sv.readFile(JoinPath("chat-history/llm", m.imagePath.s)).Success?
    requires var path := JoinPath("chat-history/llm", m.imagePath.s);
      sv.send(Parts([Blob(sv.readFile(path).value, MimeOfPath(path)), Caption(m.content)])).Success?
    ensures var path := JoinPath("chat-history/llm", m.imagePath.s);
      var payload := Parts([Blob(sv.readFile(path).value, MimeOfPath(path)),
                            Text(if m.content.Given() then m.content.s else DefaultInstruction)]);
      GenerateChatResponse(sv, m) == Run(Success(sv.send(payload).value), [ReadFile(path), Send(payload)])
  {
    var path := JoinPath("chat-history/llm", m.imagePath.s);
    var parts := [Blob(sv.readFile(path).value, MimeOfPath(path)), Caption(m.content)];
    assert StorageRoot(Plain) == "chat-history/llm";
    var built := StoredImageParts(sv, "chat-history/llm", m.imagePath.s, Caption(m.content));
    assert BuildParts(Plain, sv, m) == built;
    assert built == Run(Success(parts), [ReadFile(path)]);
    assert Respond(Plain, sv, m) == SendParts(sv, built);
  }

  /** A stored image is read from under `chat-history/llm`, and is the first call. */
  lemma StoredImageRoot(sv: Services, m: Message)
    requires Classify(m) == StoredImage
    ensures GenerateChatResponse(sv, m).calls[0] == ReadFile(JoinPath("chat-history/llm", m.imagePath.s))
  {
    var built := BuildParts(Plain, sv, m);
    assert built.calls == [ReadFile(JoinPath(StorageRoot(Plain), m.imagePath.s))];
    assert SendParts(sv, built).calls[0] == built.calls[0];
  }

  /** An undecodable payload raises the inner 400, which reaches the caller as a 500. */
  lemma BadImageIs500(sv: Services, m: Message)
    requires m.image.Given() && ParseImage(m.image.s).Success?
    requires sv.decode(ParseImage(m.image.s).value.encoded).Failure?
    ensures GenerateChatResponse(sv, m)
         == Run(Failure(HttpException(500, FailurePrefix + "400: " + ImageFailurePrefix
                                           + sv.decode(ParseImage(m.image.s).value.encoded).error)),
                [Decode(ParseImage(m.image.s).value.encoded)])
  {
    var encoded := ParseImage(m.image.s).value.encoded;
    var inner := HttpException(400, ImageFailurePrefix + sv.decode(encoded).error);
    var built := BuildParts(Plain, sv, m);
    assert built == InlineImageParts(sv, m.image.s, Caption(m.content));
    assert built == Run(Failure(inner), [Decode(encoded)]);
    OuterDetailOfBadImage(sv.decode(encoded).error);
  }

  /** A header without `:` raises IndexError before anything is called; the
      caller sees its text behind the outer prefix. */
  lemma BadHeaderIs500(sv: Services, m: Message)
    requires m.image.Given() && ParseImage(m.image.s).Failure?
    ensures GenerateChatResponse(sv, m)
         == Run(Failure(HttpException(500, FailurePrefix + "list index out of range")), [])
  {
    assert BuildParts(Plain, sv, m) == Run(Failure(IndexError(IndexOutOfRange)), []);
  }

  /** An unreadable stored image is one read, then a 500 carrying the reader's message. */
  lemma UnreadableFileIs500(sv: Services, m: Message)
    requires Classify(m) == StoredImage
    requires sv.readFile(JoinPath("chat-history/llm", m.imagePath.s)).Failure?
    ensures var path := JoinPath("chat-history/llm", m.imagePath.s);
      GenerateChatResponse(sv, m)
        == Run(Failure(HttpException(500, FailurePrefix + sv.readFile(path).error)), [ReadFile(path)])
  {
    var path := JoinPath("chat-history/llm", m.imagePath.s);
    assert StorageRoot(Plain) == "chat-history/llm";
    assert BuildParts(Plain, sv, m) == Run(Failure(OSError(sv.readFile(path).error)), [ReadFile(path)]);
  }

  /** The text of the inner 400, as the outer handler renders it. */
  lemma OuterDetailOfBadImage(msg: string)
    ensures FailurePrefix + Describe(HttpException(400, ImageFailurePrefix + msg))
         == FailurePrefix + "400: " + ImageFailurePrefix + msg
  {
    var detail := ImageFailurePrefix + msg;
    StatusText400();
    DescribeHttp(400, detail);
    assert "400" + ": " + detail == "400: " + detail;
    assert FailurePrefix + ("400: " + detail) == FailurePrefix + "400: " + ImageFailurePrefix + msg;
  }

  /** How the handler renders an HTTPException it catches. */
  lemma DescribeHttp(status: nat, detail: string)
    ensures Describe(HttpException(status, detail)) == NatToString(status) + ": " + detail
  {
  }

  lemma StatusText400()
    ensures NatToString(400) == "400"
  {
    assert NatToString(4) == "4";
    assert NatToString(40) == NatToString(4) + "0";
    assert NatToString(400) == NatToString(40) + "0";
  }

  /** `rebuild_chat_session`: the history handed to the new chat session. */
  function RebuildChatSession(turns: seq<Turn>): (r: Result<seq<Content>, Exception>)
    // it fails exactly when a turn lacks its role, or a user or assistant turn lacks its content
    ensures r.Success? <==> forall i :: 0 <= i < |turns| ==>
      && !turns[i].role.Missing?
      && (turns[i].role == Str("user") || turns[i].role == Str("assistant") ==> !turns[i].content.Missing?)
    ensures r.Failure? ==> r.error == KeyError("role") || r.error == KeyError("content")
    // the exception is that of the earliest turn missing a key: its role, else its content
    ensures r.Failure? ==>
      exists i :: 0 <= i < |turns|
        && (forall j :: 0 <= j < i ==> History.KeysPresent(History.Conversation, turns[j]))
        && (turns[i].role.Missing? ==> r.error == KeyError("role"))
        && (!turns[i].role.Missing? ==> turns[i].content.Missing? && r.error == KeyError("content"))
    // one text content per user or assistant turn, every other role dropped
    ensures r.Success? ==> |r.value| == History.CountRecognised(History.Conversation, turns)
    ensures r.Success? ==> forall k :: 0 <= k < |r.value| ==>
      |r.value[k].parts| == 1 && !r.value[k].parts[0].Blob?
  {
    History.Rebuild(History.Conversation, turns)
  }
}

=== FILE: pypath.dfy ===
/** POSIX path handling as Python's `os.path.join` and `pathlib.PurePosixPath`
    perform it: joining a relative or absolute component, and the `name` and
    `suffix` of a path. */
module PyPath {
  import opened Wrappers
  import opened PyText

  /** `os.path.join(base, part)`: an absolute `part` discards `base`. */
  function JoinPath(base: string, part: string): (r: string)
    ensures |part| > 0 && part[0] == '/' ==> r == part
    ensures |r| >= |part| && r[|r| - |part|..] == part
  {
    if |part| > 0 && part[0] == '/' then part
    else if |base| == 0 || base[|base| - 1] == '/' then base + part
    else base + "/" + part
  }

  /** A relative component lands under the base directory. */
  lemma JoinRelative(base: string, part: string)
    requires |base| > 0 && base[|base| - 1] != '/'
    requires |part| > 0 && part[0] != '/'
    ensures JoinPath(base, part) == base + "/" + part
  {
  }

  /** The path components `pathlib` keeps: empty and `.` fields are dropped. */
  function Kept(fields: seq<string>): (r: seq<string>)
    ensures forall i :: 0 <= i < |r| ==> r[i] != "" && r[i] != "."
    ensures |r| <= |fields|
  {
    if |fields| == 0 then []
    else
      var last := fields[|fields| - 1];
      Kept(fields[..|fields| - 1]) + (if last == "" || last == "." then [] else [last])
  }

  /** `PurePosixPath(path).name`: the last kept component, or "" for a root or empty path. */
  function Name(path: string): (r: string)
    ensures '/' !in r && r != "."
  {
    var parts := Kept(Split(path, '/'));
    if |parts| == 0 then "" else
      assert '/' !in Split(path, '/')[|Split(path, '/')| - 1];
      KeptFrom(Split(path, '/'), '/');
      parts[|parts| - 1]
  }

  lemma {:induction false} KeptFrom(fields: seq<string>, c: char)
    requires forall i :: 0 <= i < |fields| ==> c !in fields[i]
    ensures forall i :: 0 <= i < |Kept(fields)| ==> c !in Kept(fields)[i]
    decreases |fields|
  {
    if |fields| > 0 {
      KeptFrom(fields[..|fields| - 1], c);
    }
  }

  /** `PurePosixPath(path).suffix`: from the last dot of the name, provided the
      dot is neither the name's first nor its last character. */
  function Suffix(path: string): (r: string)
    ensures r == "" || (|r| >= 2 && r[0] == '.' && '.' !in r[1..])
    // a suffix is a proper tail of the name
    ensures r != "" ==> |r| < |Name(path)| && Name(path)[|Name(path)| - |r|..] == r
    // there is none exactly when no dot follows the name's first character, or the name ends with a dot
    ensures var name := Name(path);
      r == "" <==> (|name| <= 1 || '.' !in name[1..] || name[|name| - 1] == '.')
  {
    var name := Name(path);
    match LastIndexOf(name, '.')
    case None => ""
    case Some(i) => if 0 < i < |name| - 1 then name[i..] else ""
  }

  /** The name of `dir/name` is `name`, whatever the directory part. */
  lemma NameOfChild(dir: string, name: string)
    requires name != "" && name != "." && '/' !in name
    ensures Name(dir + "/" + name) == name
  {
    SplitConcat(dir, '/', name);
    assert Split(name, '/') == [name];
    var fields := Split(dir, '/') + [name];
    assert fields[..|fields| - 1] == Split(dir, '/');
  }

  /** The suffix of `dir/stem.ext` is `.ext` when the extension holds no dot. */
  lemma SuffixOfChild(dir: string, stem: string, ext: string)
    requires stem != "" && '/' !in stem
    requires |ext| >= 2 && ext[0] == '.' && '.' !in ext[1..] && '/' !in ext
    ensures Suffix(dir + "/" + stem + ext) == ext
  {
    var name := stem + ext;
    assert dir + "/" + stem + ext == dir + "/" + name;
    NameOfChild(dir, name);
    var i := LastIndexOf(name, '.').value;
    assert name[|stem|] == '.';
  }
}

=== FILE: pytext.dfy ===
/** The few Python string operations the chat core relies on: `find`, `rfind`,
    `split` (with and without a split limit of one), `join` and `lower`. */
module PyText {
  import opened Wrappers

  /** Position of the first `c` in `s` (Python `s.find(c)`), None when absent. */
  function IndexOf(s: string, c: char): (r: Option<nat>)
    ensures r.None? <==> c !in s
    ensures r.Some? ==> r.value < |s| && s[r.value] == c && c !in s[..r.value]
  {
    if |s| == 0 then None
    else if s[0] == c then Some(0)
    else
      match IndexOf(s[1..], c)
      case None => None
      case Some(i) =>
        assert s[..i + 1] == [s[0]] + s[1..][..i];
        Some(i + 1)
  }

  /** Position of the last `c` in `s` (Python `s.rfind(c)`), None when absent. */
  function LastIndexOf(s: string, c: char): (r: Option<nat>)
    ensures r.None? <==> c !in s
    ensures r.Some? ==> r.value < |s| && s[r.value] == c && c !in s[r.value + 1..]
  {
    if |s| == 0 then None
    else if s[|s| - 1] == c then Some(|s| - 1)
    else
      var r := LastIndexOf(s[..|s| - 1], c);
      assert r.None? ==> s == s[..|s| - 1] + [s[|s| - 1]];
      assert r.Some? ==> s[r.value + 1..] == s[..|s| - 1][r.value + 1..] + [s[|s| - 1]];
      r
  }

  /** The first occurrence of `c` in the text is always the one `IndexOf` finds. */
  lemma IndexOfFirst(x: string, c: char, y: string)
    requires c !in x
    ensures IndexOf(x + [c] + y, c) == Some(|x|)
  {
    var s := x + [c] + y;
    assert s[|x|] == c;
  }

  /** Python `s.split(c, 1)`: None when `c` does not occur (the list has one
      element), otherwise the text before the first `c` and everything after it. */
  function SplitOnce(s: string, c: char): (r: Option<(string, string)>)
    ensures r.None? <==> c !in s
    ensures r.Some? ==> s == r.value.0 + [c] + r.value.1 && c !in r.value.0
  {
    match IndexOf(s, c)
    case None => None
    case Some(i) =>
      assert s == s[..i] + [c] + s[i + 1..];
      Some((s[..i], s[i + 1..]))
  }

  /** Python `s.split(c)` for a one-character separator. */
  function Split(s: string, c: char): (r: seq<string>)
    ensures |r| >= 1
    ensures forall i :: 0 <= i < |r| ==> c !in r[i]
    ensures |r| == 1 <==> c !in s
    ensures |r[0]| <= |s| && s[..|r[0]|] == r[0]
    ensures |r[0]| < |s| ==> s[|r[0]|] == c
    decreases |s|
  {
    match SplitOnce(s, c)
    case None => [s]
    case Some((head, tail)) =>
      assert s[..|head|] == head;
      [head] + Split(tail, c)
  }

  /** Text without the separator is a single field. */
  lemma SplitWhole(s: string, c: char)
    requires c !in s
    ensures Split(s, c) == [s]
  {
  }

  /** A leading separator contributes an empty first field. */
  lemma SplitLeading(w: string, c: char)
    ensures Split([c] + w, c) == [""] + Split(w, c)
  {
    SplitCons("", c, w);
    assert "" + [c] + w == [c] + w;
  }

  /** Separator-free text on both sides of `b` stays two whole fields. */
  lemma SplitFramed(a: string, b: string, d: string, c: char)
    requires c !in a && c !in d
    ensures Split(a + [c] + (b + [c] + d), c) == [a] + Split(b, c) + [d]
  {
    SplitCons(a, c, b + [c] + d);
    SplitConcat(b, c, d);
    SplitWhole(d, c);
  }

  /** Python `sep.join(parts)`. */
  function Join(sep: string, parts: seq<string>): string
  {
    if |parts| == 0 then ""
    else if |parts| == 1 then parts[0]
    else parts[0] + sep + Join(sep, parts[1..])
  }

  /** Splitting at the first separator of `x + [c] + y` peels off `x`. */
  lemma SplitCons(x: string, c: char, y: string)
    requires c !in x
    ensures Split(x + [c] + y, c) == [x] + Split(y, c)
  {
    IndexOfFirst(x, c, y);
    var s := x + [c] + y;
    assert s[..|x|] == x;
    assert s[|x| + 1..] == y;
  }

  /** `split` distributes over a separator: the fields of `x + c + y` are the
      fields of `x` followed by the fields of `y`. */
  lemma {:induction false} SplitConcat(x: string, c: char, y: string)
    ensures Split(x + [c] + y, c) == Split(x, c) + Split(y, c)
    decreases |x|
  {
    match SplitOnce(x, c)
    case None =>
      SplitWhole(x, c);
      SplitCons(x, c, y);
    case Some((h, t)) =>
      assert x == h + [c] + t && c !in h;
      var u := t + [c] + y;
      assert x + [c] + y == h + [c] + u by { Regroup(h, t, y, c); }
      SplitCons(h, c, u);
      assert Split(x + [c] + y, c) == [h] + Split(u, c);
      SplitConcat(t, c, y);
      assert Split(u, c) == Split(t, c) + Split(y, c);
      SplitCons(h, c, t);
      assert Split(x, c) == [h] + Split(t, c);
      Assoc([h], Split(t, c), Split(y, c));
  }

  lemma Regroup(h: string, t: string, y: string, c: char)
    ensures h + [c] + t + [c] + y == h + [c] + (t + [c] + y)
  {
  }

  lemma Assoc<T>(a: seq<T>, b: seq<T>, d: seq<T>)
    ensures a + b + d == a + (b + d)
  {
  }

  /** Joining the fields of `s` with the separator gives `s` back. */
  lemma {:induction false} JoinSplit(s: string, c: char)
    ensures Join([c], Split(s, c)) == s
    decreases |s|
  {
    match SplitOnce(s, c)
    case None =>
    case Some((h, t)) =>
      JoinSplit(t, c);
  }

  /** A join of two or more parts starts with the first part and the separator. */
  lemma JoinCons(sep: string, parts: seq<string>)
    requires |parts| >= 2
    ensures Join(sep, parts) == parts[0] + sep + Join(sep, parts[1..])
  {
  }

  /** Splitting a join of separator-free fields gives the fields back. */
  lemma {:induction false} SplitJoin(parts: seq<string>, c: char)
    requires |parts| >= 1
    requires forall i :: 0 <= i < |parts| ==> c !in parts[i]
    ensures Split(Join([c], parts), c) == parts
    decreases |parts|
  {
    if |parts| == 1 {
      SplitWhole(parts[0], c);
    } else {
      var rest := parts[1..];
      var j := Join([c], rest);
      JoinCons([c], parts);
      SplitJoin(rest, c);
      SplitCons(parts[0], c, j);
      assert [parts[0]] + rest == parts;
    }
  }

  /** The first field of `x + y` is `x` when `x` has no separator and `y` is
      empty or starts with one. */
  lemma SplitHead(x: string, y: string, c: char)
    requires c !in x
    requires y == [] || y[0] == c
    ensures Split(x + y, c)[0] == x
  {
    var s := x + y;
    assert s[..|x|] == x;
  }

  function LowerChar(ch: char): char
  {
    if 'A' <= ch <= 'Z' then (ch as int + 32) as char else ch
  }

  /** Python `s.lower()` restricted to ASCII letters. */
  function Lower(s: string): (r: string)
    ensures |r| == |s|
    ensures forall i :: 0 <= i < |s| ==> !('A' <= r[i] <= 'Z')
    ensures forall i :: 0 <= i < |s| ==> r[i] == s[i] || r[i] as int == s[i] as int + 32
    // exactly the ASCII capitals change, each to its small letter
    ensures forall i :: 0 <= i < |s| ==> ('A' <= s[i] <= 'Z' <==> r[i] != s[i])
  {
    seq(|s|, i requires 0 <= i < |s| => LowerChar(s[i]))
  }

  function Digit(d: nat): char
    requires d < 10
  {
    "0123456789"[d]
  }

  /** Python `str(n)` for a natural number. */
  function NatToString(n: nat): (r: string)
    ensures |r| >= 1
    ensures forall i :: 0 <= i < |r| ==> '0' <= r[i] <= '9'
  {
    if n < 10 then [Digit(n)] else NatToString(n / 10) + [Digit(n % 10)]
  }
}

=== FILE: wrappers.dfy ===
/** Option and Result, the two failure-carrying datatypes the model uses for
    Python's `None` and for raised exceptions. */
module Wrappers {

  datatype Option<+T> = None | Some(value: T)

  datatype Result<+T, +E> = Success(value: T) | Failure(error: E)
}
